=== FILE: README.md ===
# WIDER-Face labels and the MultiBox loss, in Dafny

This project models two pure pieces of the mindface RetinaFace detection
pipeline and proves properties of them.

1. The WIDER-Face label reader (`WiderFace.__init__` in
   `mindface/detection/datasets/dataset.py`) and the target-row builder
   (`read_dataset`).
   - The label file is a sequence of lines. A line that starts with `#`
     after right-stripping names an image. Every other line is a box row of
     numbers separated by single spaces.
   - The reader works in three stages:
     - `WiderFace.ReadLines` classifies each line and reports the first
       line in file order that fails.
     - `WiderFace.Scan` is the `first`/`labels` state machine of the loop.
       It groups box rows into one record per header.
     - `WiderFace.Prune` is the back-to-front pass with `pop`. It drops
       degenerate boxes, and drops each record left empty together with
       its image.
   - `WiderFace.Load` composes the three stages.
   - `ReadLines` agrees line by line with `ReadLine`, whose contract fixes
     the header path, the numbers of a box line, and when each kind of line
     fails.
   - The last two stages are proved equal to independent reference
     definitions: `Scan` to `Group`, a right fold that splits at headers, and
     `Prune` to `PruneSpec`, a front-to-back filter.
   - `ReadDataset.TargetRow` maps a label row to the 15-column target row.
     The target row is proved to decode back to the face its label row
     describes.
2. `MultiBoxLoss.construct` in `mindface/detection/loss/loss.py`, covering:
   - the anchor masks;
   - the normalisers, which are floored at one;
   - the per-sample negative budget;
   - the rank trick;
   - the 0/1 selection mask;
   - the three losses.

   Both `TopK` results are inputs, constrained only to be permutations that
   sort descending. `Ranking.RankIsInverse` proves that the reversed second
   sort is the inverse of the first, whatever the tie-breaking.
   `MultiBox.ConfLossIgnoresTies` proves that the classification loss does not
   depend on tie-breaking at all.

Files:

- `wrappers.dfy`: `Option` and `Result`.
- `seqs.dfy`: filter, sums, counts and masked sums.
- `widerface.dfy`: the label reader.
- `targets.dfy`: `read_dataset`.
- `ranking.dfy`: descending sorts, ranks and top-k sums.
- `multibox.dfy`: the loss.

Three behaviours of the code are easy to miss:

- The code does not zero-fill missing landmarks. `read_dataset` indexes
  columns up to 17, so a row with fewer than 18 values fails
  (`ReadDataset.Targets`).
- A row of three values whose width is at most zero is dropped silently,
  because `or` short-circuits. Any other row shorter than four values fails
  (`WiderFace.KeepRow`).
- The localisation and classification masks are `conf != 0`, so ignored
  anchors (label `-1`) count as positives there. Only the landmark mask uses
  `conf > 0`.

## Model

| member | source | states |
|---|---|---|
| `WiderFace.RStrip` | mindface/detection/datasets/dataset.py:46 | the stripped line is a prefix of the raw line, does not end in whitespace, and only whitespace (Python's `isspace` set) was removed |
| `WiderFace.Split` | mindface/detection/datasets/dataset.py:62 | `split(' ')` yields at least one piece, no piece contains the separator, and joining the pieces with the separator gives the line back |
| `WiderFace.SplitJoin` | mindface/detection/datasets/dataset.py:62 | splitting undoes joining for pieces without the separator (the other half of the round trip) |
| `WiderFace.ReplaceAll` | mindface/detection/datasets/dataset.py:56 | Python's `str.replace`, specified by `ReplaceWithoutOccurrence` and `ReplaceAtEnd` below |
| `WiderFace.ReplaceWithoutOccurrence` | mindface/detection/datasets/dataset.py:56 | `replace` leaves a string without the pattern unchanged |
| `WiderFace.ReplaceAtEnd` | mindface/detection/datasets/dataset.py:56 | a path whose only occurrence of the pattern is at its end has exactly that occurrence replaced |
| `WiderFace.HeaderPath` | mindface/detection/datasets/dataset.py:55-56 | the image path ends with the header text after its first two characters; a header shorter than two characters adds nothing to the replaced label path |
| `WiderFace.HeaderPathUsual` | mindface/detection/datasets/dataset.py:55-56 | for `<dir>label.txt` and header `# <rel>`, the image path is `<dir>images/<rel>` |
| `WiderFace.ParseRow` | mindface/detection/datasets/dataset.py:63 | every token is converted in order, or the first token that is not a number is reported |
| `WiderFace.ReadLine` | mindface/detection/datasets/dataset.py:45-64 | a line is a header iff it starts with `#` after stripping; a header's path is the derived path and must exist, otherwise the error is a missing image; a box line holds the value of each of its tokens, in order, and fails (with a bad number) iff some token is not a number |
| `WiderFace.BlankLineIsError` | mindface/detection/datasets/dataset.py:61-63 | a blank or all-whitespace line is not skipped: `float('')` fails |
| `WiderFace.DoubledSpaceIsError` | mindface/detection/datasets/dataset.py:62-63 | two adjacent spaces inside a box line make an empty token, which fails |
| `WiderFace.ReadLines` | mindface/detection/datasets/dataset.py:45-64 | on success, one classified line per raw line, index-aligned; on failure, the error of the first failing line in file order |
| `WiderFace.Group` | mindface/detection/datasets/dataset.py:43-66 | the reference grouping has exactly one image and one body per header, and every image comes from a header line |
| `WiderFace.RunMatchesGroup` | mindface/detection/datasets/dataset.py:45-66 | from any loop state, running the state machine to the end of the file gives what the reference grouping of the remaining lines predicts |
| `WiderFace.Scan` | mindface/detection/datasets/dataset.py:43-66 | the `first`/`labels` state machine; `ScanMatchesGroup` and `ScanShape` below state what it yields |
| `WiderFace.ScanMatchesGroup` | mindface/detection/datasets/dataset.py:43-66 | the state machine yields one record per header in file order; the first header does not flush, and the last record is flushed at end of file |
| `WiderFace.ScanShape` | mindface/detection/datasets/dataset.py:43-66 | with at least one header, images and records have equal length (one per header); with none, there is one record and no image |
| `WiderFace.LeadingBoxesJoinFirstRecord` | mindface/detection/datasets/dataset.py:43-64 | box rows before the first header are kept and open the first image's record |
| `WiderFace.KeepRow` | mindface/detection/datasets/dataset.py:72-74 | the width/height test succeeds iff the row has at least four values, or three with a non-positive width; a row is kept iff it has positive width and height |
| `WiderFace.PruneRecord` | mindface/detection/datasets/dataset.py:71-74 | the reverse pass with `pop` succeeds iff every row is testable, and then removes exactly the degenerate boxes, keeping the rest in order |
| `WiderFace.Prune` | mindface/detection/datasets/dataset.py:69-79 | the back-to-front pass fails only on a row too short for the test or on a `pop` past the image list, and keeps only images of its input; `PruneMatchesSpec` and `PruneAligned` below relate it to the reference |
| `WiderFace.PruneSpec` | mindface/detection/datasets/dataset.py:69-79 | the reference pruning keeps images and records aligned; every kept record is non-empty and holds only faces; every kept image comes from the input |
| `WiderFace.PruneSpecSnoc` | mindface/detection/datasets/dataset.py:69-79 | appending one image and record extends the reference result by that record's faces, or by nothing if none are left |
| `WiderFace.PruneMatchesSpec` | mindface/detection/datasets/dataset.py:69-79 | the back-to-front pass with `pop` equals the front-to-back reference whenever there are at least as many images as records |
| `WiderFace.PruneAligned` | mindface/detection/datasets/dataset.py:69-79 | on aligned lists, pruning fails iff some row is too short for the test, and otherwise equals the reference |
| `WiderFace.EmptyRecordDropped` | mindface/detection/datasets/dataset.py:75-77 | an empty record (a header followed directly by a header) disappears together with its image |
| `WiderFace.Load` | mindface/detection/datasets/dataset.py:38-79 | every image path of a loaded dataset exists, with or without a header line |
| `WiderFace.LoadAligned` | mindface/detection/datasets/dataset.py:41-79 | for a file with a header, a successful load gives equal-length image and label lists; every record is non-empty, every box has positive width and height, and every image exists |
| `WiderFace.LoadWithoutHeader` | mindface/detection/datasets/dataset.py:43-77 | for a file without a header, a successful load keeps one record and no image |
| `WiderFace.PruneMatchesSpecEmptyImages` | mindface/detection/datasets/dataset.py:69-79 | with one record and no image: a short row fails, a record that empties fails on the `pop`, and any other record is kept |
| `WiderFace.EmptyFileFails` | mindface/detection/datasets/dataset.py:66-77 | an empty label file fails, because its single empty record has no image to pop |
| `Seqs.Filter` | mindface/detection/datasets/dataset.py:71-74 | the filtered rows all satisfy the test and come from the input, and every input row that satisfies the test is kept |
| `ReadDataset.TargetRow` | mindface/detection/datasets/dataset.py:114-128 | a label row converts iff it has at least 18 values, and then gives 15 columns |
| `ReadDataset.TargetRowRoundTrip` | mindface/detection/datasets/dataset.py:117-128 | the target row decodes back to the label's box, its ten landmark coordinates (columns 4,5,7,8,...,17) and its presence flag |
| `ReadDataset.FlagColumn` | mindface/detection/datasets/dataset.py:124-128 | column 14 of the target is `-1` iff the label's column 4 is negative, and `1` otherwise |
| `ReadDataset.Targets` | mindface/detection/datasets/dataset.py:114-130 | all rows convert iff each has at least 18 values; the result has one target per label, in order |
| `ReadDataset.Read` | mindface/detection/datasets/dataset.py:110-133 | an empty annotation gives only the empty target array, not an image/target pair; otherwise the pair holds the image and exactly the rows `Targets` builds, one per label, each decoding back to its label's face and carrying the flag `-1` or `1`; it fails iff some label is too short |
| `ReadDataset.FaceTargetHasArea` | mindface/detection/datasets/dataset.py:118-119 | a box that survived pruning becomes a target with `x2 > x1` and `y2 > y1` |
| `MultiBox.SmoothL1` | mindface/detection/loss/loss.py:96 | Smooth-L1 is non-negative, zero exactly at zero, and lies between `abs(x) - 0.5` and `abs(x)` |
| `MultiBox.QuadraticPiece` | mindface/detection/loss/loss.py:96 | on `[0, 1)` the quadratic piece is zero only at zero and lies within the linear bounds |
| `MultiBox.PairLoss` | mindface/detection/loss/loss.py:95-96 | an anchor's summed Smooth-L1 is non-negative and zero exactly when prediction and target agree |
| `MultiBox.LocLoss` | mindface/detection/loss/loss.py:91-97 | the localisation loss; specified by `LocLossMean`, `LocLossIgnoresBackground`, `LocLossZero` and `LossesNonNegative` |
| `MultiBox.LandmLoss` | mindface/detection/loss/loss.py:83-88 | the landmark loss; specified by `LandmLossMean`, `LandmLossIgnoresNonFaces`, `LandmLossZero` and `LossesNonNegative` |
| `MultiBox.LocLossIgnoresBackground` | mindface/detection/loss/loss.py:91-97 | the localisation loss reads box predictions and targets of non-background anchors only |
| `MultiBox.LocLossZero` | mindface/detection/loss/loss.py:91-97 | the localisation loss is zero iff every non-background anchor's box prediction equals its target |
| `MultiBox.LandmLossIgnoresNonFaces` | mindface/detection/loss/loss.py:83-88 | the landmark loss reads landmark predictions and targets of face anchors only |
| `MultiBox.LandmLossZero` | mindface/detection/loss/loss.py:83-88 | the landmark loss is zero iff every face anchor's landmark prediction equals its target |
| `MultiBox.LandmarkNormaliserAtMostLoc` | mindface/detection/loss/loss.py:83-94 | the landmark normaliser never exceeds the localisation normaliser |
| `MultiBox.BinarizedLossesUnchanged` | mindface/detection/loss/loss.py:91-128 | replacing labels by their binary class changes neither the localisation nor the classification loss, and the same sorts stay valid |
| `MultiBox.MiningScores` | mindface/detection/loss/loss.py:113 | the mining score is zero at every non-background anchor, and the background cross-entropy at every other anchor |
| `MultiBox.NegativeBudget` | mindface/detection/loss/loss.py:121 | the budget is the smaller of `numMatched * ratio` and `numBoxes - 1`; it lies in `[0, numBoxes)` when the ratio is non-negative and there is an anchor |
| `MultiBox.Selection` | mindface/detection/loss/loss.py:122-128 | the mask is 0/1-valued, and an anchor is selected iff it is non-background or ranked below the budget |
| `Ranking.RankIsInverse` | mindface/detection/loss/loss.py:115-119 | reversing the descending sort of the sort permutation gives a permutation that is its inverse, for any tie-breaking in either sort |
| `Ranking.Countdown` | mindface/detection/loss/loss.py:116-118 | a strictly decreasing sequence of `n` values in `[0, n)` is `n-1, ..., 0`, so the second sort is forced |
| `Ranking.RankBelowIsPrefix` | mindface/detection/loss/loss.py:115-123 | the anchors ranked below `k` are exactly the first `k` of the descending order |
| `Ranking.RankMaskCount` | mindface/detection/loss/loss.py:118-123 | exactly `k` anchors are ranked below `k` |
| `Ranking.RankedBelowIsHarder` | mindface/detection/loss/loss.py:113-123 | every anchor ranked below `k` scores at least as high as every anchor ranked later |
| `Ranking.TopSum` | mindface/detection/loss/loss.py:115-123 | summing the scores of the anchors ranked below `k` is summing the first `k` sorted scores |
| `Ranking.SortedUnique` | mindface/detection/loss/loss.py:115 | two descending sorts of the same scores give the same sorted scores |
| `MultiBox.SampleSelection` | mindface/detection/loss/loss.py:121-123 | one sample's selection mask, one entry per anchor; `SelectionMeaning` below states which anchors it selects |
| `MultiBox.SelectionMeaning` | mindface/detection/loss/loss.py:111-128 | every non-background anchor is selected; `k` anchors are selected by rank (some may be non-background), and they are the first `k` of the order; every selected background anchor scores at least as high as every unselected one |
| `MultiBox.SampleConfSplit` | mindface/detection/loss/loss.py:125-128 | a sample's selected cross-entropy is the face cross-entropy of its non-background anchors plus the mining scores of its rank-selected anchors |
| `MultiBox.ConfLossIgnoresTies` | mindface/detection/loss/loss.py:111-130 | the classification loss is the same for every valid pair of `TopK` results, so tie-breaking does not matter |
| `MultiBox.ConfLoss` | mindface/detection/loss/loss.py:125-130 | the classification loss; `SampleConfSplit`, `ConfLossIgnoresTies`, `ConfLossMean` and `LossesNonNegative` specify it |
| `MultiBox.LocLossMean` | mindface/detection/loss/loss.py:91-97 | the localisation loss divides by the number of non-background anchors in the whole batch: if every such anchor's Smooth-L1 sum is `c` (and there is one), the loss is `c` |
| `MultiBox.LandmLossMean` | mindface/detection/loss/loss.py:83-88 | the landmark loss divides by the number of face anchors (label `> 0`) in the whole batch: if every face anchor's Smooth-L1 sum is `c` (and there is one), the loss is `c` |
| `MultiBox.SampleConfWithoutMining` | mindface/detection/loss/loss.py:121-128 | with ratio 0 the budget selects no anchor by rank, so a sample's selected cross-entropy is the face cross-entropy of its non-background anchors |
| `MultiBox.ConfLossMean` | mindface/detection/loss/loss.py:121-130 | the classification loss divides by the same non-background count as the localisation loss: with ratio 0, if every non-background anchor's face cross-entropy is `c` (and there is one), the loss is `c` |
| `MultiBox.LossesNonNegative` | mindface/detection/loss/loss.py:80-132 | all three losses are non-negative |
| `MultiBox.MultiBoxLoss` | mindface/detection/loss/loss.py:80-132 | the returned triple (loc, conf, landm) is non-negative in every component |

## Left out

- File reading is not modelled. The label file is given as its lines.
- The image-existence assertion is a parameter `imageExists`. A failed
  assertion is the error `MissingImage`. This models the default
  interpreter: under `python -O` the `assert` is skipped and a missing image
  is kept.
- Python's number syntax is the parameter `parse`. Only its rejection of the
  empty token is fixed.
- `cv2.imread` is not modelled: the decoded image is a parameter of any
  type.
- `create_dataset` is not modelled. It is data-loader plumbing: generator,
  map, batch, shard and distributed initialisation.
- The anchor matcher `Bboxencode` and the augmentation `Preproc` are not
  part of this model.
- `SoftmaxCrossEntropyWithLogits` and the log-sum-exp with its global-max
  shift are not modelled. Each anchor carries its non-negative cross-entropy
  for class 0 and class 1. This fixes `num_classes` at 2, which the
  `[1 - c, c]` indices require.
- All arithmetic is on mathematical reals, not float32. The cast of the
  `TopK` indices to float32 is taken as exact, which holds below 2^24
  anchors.
- The tie-breaking of `TopK` is unspecified. Both sorts are inputs
  constrained to be descending permutations.
- `WiderFace.LoadAligned`: Python's `float` also accepts `nan`, `inf` and
  `-inf`, which a real cannot hold. A row such as `1 1 nan 5` passes
  `WiderFace.__init__`'s test `label[2] <= 0 or label[3] <= 0` and is kept, so "every box
  has positive width and height" holds of the real-valued model only.
- `ReadDataset.Targets`: numpy's different errors for a short row
  (broadcasting versus indexing) are collapsed into the single error
  `TooFewColumns`.
- `ReadDataset.Read`: the float32 cast of the target array is not modelled.
- The `__len__` and `__getitem__` accessors are not modelled. They read the
  two lists of `Dataset` directly.

=== FILE: multibox.dfy ===
/** `MultiBoxLoss.construct`: the localisation, classification and landmark
    losses of RetinaFace training, with hard-negative mining.

    Tensors are sequences indexed batch sample first, anchor second. The
    anchor labels `conf` are `0` for background, `-1` for ignored and `> 0`
    for a face. The softmax cross-entropy is not computed here: each anchor
    carries its (non-negative) cross-entropy for either class, so the model
    covers the two-class case the loss is written for. The two `TopK` calls
    are inputs constrained by what `TopK` returns. */
module MultiBox {
  import opened Seqs
  import opened Ranking

  /** Cross-entropy of one anchor's prediction against label 0 and label 1. */
  datatype ClassLoss = ClassLoss(background: real, face: real)

  /** `num_boxes` (anchors per image) and `neg_pre_positive`. */
  datatype Config = Config(numBoxes: int, negPerPositive: int)

  datatype Batch = Batch(
    locPred: seq<seq<seq<real>>>, locTarget: seq<seq<seq<real>>>,
    classLoss: seq<seq<ClassLoss>>, conf: seq<seq<int>>,
    landmPred: seq<seq<seq<real>>>, landmTarget: seq<seq<seq<real>>>)

  /** The three losses, in the order they are returned. */
  datatype Losses = Losses(loc: real, conf: real, landm: real)

  predicate Shaped(x: seq<seq<seq<real>>>, b: nat, n: nat, width: nat) {
    && |x| == b
    && forall s :: 0 <= s < b ==> |x[s]| == n && forall a :: 0 <= a < n ==> |x[s][a]| == width
  }

  /** The shapes the tensors must have: every sample has `numBoxes` anchors,
      4 box offsets and 10 landmark offsets per anchor; cross-entropy is
      never negative. */
  predicate WellShaped(cfg: Config, batch: Batch) {
    var b := |batch.conf|;
    && cfg.numBoxes >= 0
    && (forall s :: 0 <= s < b ==> |batch.conf[s]| == cfg.numBoxes)
    && |batch.classLoss| == b
    && (forall s :: 0 <= s < b ==> |batch.classLoss[s]| == cfg.numBoxes)
    && (forall s, a :: 0 <= s < b && 0 <= a < cfg.numBoxes ==>
          batch.classLoss[s][a].background >= 0.0 && batch.classLoss[s][a].face >= 0.0)
    && Shaped(batch.locPred, b, cfg.numBoxes, 4) && Shaped(batch.locTarget, b, cfg.numBoxes, 4)
    && Shaped(batch.landmPred, b, cfg.numBoxes, 10) && Shaped(batch.landmTarget, b, cfg.numBoxes, 10)
  }

  // ---------------------------------------------------------------------------
  // Smooth-L1 regression terms
  // ---------------------------------------------------------------------------

  function Abs(x: real): real {
    if x < 0.0 then -x else x
  }

  function Square(m: real): real {
    m * m
  }

  /** A positive number has a positive square (by way of its reciprocal). */
  lemma SquarePositive(m: real)
    requires m > 0.0
    ensures Square(m) > 0.0
  {
    if m < 1.0 {
      var k := 1.0 / m;
      assert m * k == 1.0;
      assert Square(m) * k == m;
    } else {
      assert m * m >= 1.0 * m;
    }
  }

  /** `m^2 <= m` on the unit interval. */
  lemma SquareBelow(m: real)
    requires 0.0 <= m <= 1.0
    ensures Square(m) <= m
  {
    assert m * m <= m * 1.0;
  }

  /** The tangent at 1 lies below the parabola. */
  lemma SquareAboveTangent(m: real)
    ensures Square(m) >= 2.0 * m - 1.0
  {
    assert Square(m - 1.0) >= 0.0;
    assert (m - 1.0) * (m - 1.0) == m * m - 2.0 * m + 1.0;
  }

  /** On `[0, 1)` the quadratic piece is zero only at zero and lies
      between the two linear bounds of the Smooth-L1 loss. */
  lemma QuadraticPiece(m: real)
    requires 0.0 <= m < 1.0
    ensures m == 0.0 <==> Square(m) == 0.0
    ensures m - 0.5 <= Square(m) / 2.0 <= m
  {
    if m > 0.0 { SquarePositive(m); } else { assert Square(0.0) == 0.0; }
    SquareBelow(m);
    SquareAboveTangent(m);
  }

  /** `SmoothL1Loss` with beta 1: `0.5 x^2` below 1 in magnitude, `|x| - 0.5`
      from 1 on. It is zero only at zero and lies between `|x| - 0.5` and
      `|x|`. */
  function SmoothL1(x: real): (r: real)
    ensures r >= 0.0
    ensures r == 0.0 <==> x == 0.0
    ensures Abs(x) - 0.5 <= r <= Abs(x)
  {
    var m := Abs(x);
    if m < 1.0 then
      QuadraticPiece(m);
      Square(m) / 2.0
    else m - 0.5
  }

  /** Smooth-L1 summed over the coordinates of one anchor; zero exactly when
      prediction and target agree. */
  function PairLoss(p: seq<real>, t: seq<real>): (r: real)
    requires |p| == |t|
    ensures r >= 0.0
    ensures r == 0.0 <==> p == t
  {
    if p == [] then 0.0
    else
      var r := SmoothL1(p[0] - t[0]) + PairLoss(p[1..], t[1..]);
      assert p == [p[0]] + p[1..] && t == [t[0]] + t[1..];
      r
  }

  /** The per-anchor regression loss of one sample. */
  function AnchorLosses(pred: seq<seq<real>>, target: seq<seq<real>>): (r: seq<real>)
    requires |pred| == |target| && forall a :: 0 <= a < |pred| ==> |pred[a]| == |target[a]|
    ensures |r| == |pred| && forall a :: 0 <= a < |pred| ==> r[a] >= 0.0
  {
    seq(|pred|, a requires 0 <= a < |pred| => PairLoss(pred[a], target[a]))
  }

  // ---------------------------------------------------------------------------
  // Masks, counts and normalisers
  // ---------------------------------------------------------------------------

  /** `mask_pos`: anchors whose label is not background (faces and ignored). */
  function PositiveMask(conf: seq<int>): (m: seq<bool>)
    ensures |m| == |conf| && forall a :: 0 <= a < |conf| ==> (m[a] <==> conf[a] != 0)
  {
    seq(|conf|, a requires 0 <= a < |conf| => conf[a] != 0)
  }

  /** `mask_pos1`: anchors labelled as a face; ignored anchors are excluded. */
  function LandmarkMask(conf: seq<int>): (m: seq<bool>)
    ensures |m| == |conf| && forall a :: 0 <= a < |conf| ==> (m[a] <==> conf[a] > 0)
  {
    seq(|conf|, a requires 0 <= a < |conf| => conf[a] > 0)
  }

  function PositiveMasks(conf: seq<seq<int>>): (m: seq<seq<bool>>)
    ensures |m| == |conf| && forall s :: 0 <= s < |conf| ==> m[s] == PositiveMask(conf[s])
  {
    seq(|conf|, s requires 0 <= s < |conf| => PositiveMask(conf[s]))
  }

  function LandmarkMasks(conf: seq<seq<int>>): (m: seq<seq<bool>>)
    ensures |m| == |conf| && forall s :: 0 <= s < |conf| ==> m[s] == LandmarkMask(conf[s])
  {
    seq(|conf|, s requires 0 <= s < |conf| => LandmarkMask(conf[s]))
  }

  /** Number of set entries over the whole batch. */
  function BatchCount(masks: seq<seq<bool>>): nat {
    if masks == [] then 0 else Count(masks[0]) + BatchCount(masks[1..])
  }

  /** Masked sum over the whole batch. */
  function BatchMaskedSum(masks: seq<seq<bool>>, vals: seq<seq<real>>): real
    requires |masks| == |vals| && forall s :: 0 <= s < |masks| ==> |masks[s]| == |vals[s]|
  {
    if masks == [] then 0.0 else MaskedSum(masks[0], vals[0]) + BatchMaskedSum(masks[1..], vals[1..])
  }

  /** `maximum(count, 1)`: the count itself, floored at one so that a batch
      without any matched anchor divides by one. */
  function Normaliser(count: nat): (r: real)
    ensures r >= 1.0
    ensures count >= 1 ==> r == count as real
    ensures count == 0 ==> r == 1.0
  {
    if count >= 1 then count as real else 1.0
  }

  // ---------------------------------------------------------------------------
  // Localisation and landmark losses
  // ---------------------------------------------------------------------------

  function LocTerms(cfg: Config, batch: Batch): (r: seq<seq<real>>)
    requires WellShaped(cfg, batch)
    ensures |r| == |batch.conf| && forall s :: 0 <= s < |r| ==> |r[s]| == cfg.numBoxes
  {
    seq(|batch.conf|, s requires 0 <= s < |batch.conf| => AnchorLosses(batch.locPred[s], batch.locTarget[s]))
  }

  function LandmTerms(cfg: Config, batch: Batch): (r: seq<seq<real>>)
    requires WellShaped(cfg, batch)
    ensures |r| == |batch.conf| && forall s :: 0 <= s < |r| ==> |r[s]| == cfg.numBoxes
  {
    seq(|batch.conf|, s requires 0 <= s < |batch.conf| => AnchorLosses(batch.landmPred[s], batch.landmTarget[s]))
  }

  /** Smooth-L1 over the box offsets of every non-background anchor, ignored
      anchors included, divided by their batch-wide count floored at one. */
  function LocLoss(cfg: Config, batch: Batch): real
    requires WellShaped(cfg, batch)
  {
    var masks := PositiveMasks(batch.conf);
    BatchMaskedSum(masks, LocTerms(cfg, batch)) / Normaliser(BatchCount(masks))
  }

  /** Smooth-L1 over the landmark offsets of face anchors only, divided by
      their batch-wide count floored at one. */
  function LandmLoss(cfg: Config, batch: Batch): real
    requires WellShaped(cfg, batch)
  {
    var masks := LandmarkMasks(batch.conf);
    BatchMaskedSum(masks, LandmTerms(cfg, batch)) / Normaliser(BatchCount(masks))
  }

  // ---------------------------------------------------------------------------
  // Classification loss with hard-negative mining
  // ---------------------------------------------------------------------------

  /** `cast(mask_pos, int32)`: every non-background label, ignored included,
      becomes class 1; background stays class 0. */
  function BinaryLabel(c: int): (l: int)
    ensures l == 0 || l == 1
    ensures l == 1 <==> c != 0
  {
    if c != 0 then 1 else 0
  }

  /** The cross-entropy against a one-hot class-0/1 label. */
  function CrossEntropy(cl: ClassLoss, cls: int): real
    requires cls == 0 || cls == 1
  {
    if cls == 1 then cl.face else cl.background
  }

  function MaskValue(b: bool): real {
    if b then 1.0 else 0.0
  }

  /** `loss_c * (1 - mask_pos)`: the score the negatives are ranked by. It is
      zero at every non-background anchor and that anchor's background
      cross-entropy elsewhere. */
  function MiningScores(conf: seq<int>, cl: seq<ClassLoss>): (r: seq<real>)
    requires |conf| == |cl|
    ensures |r| == |conf|
    ensures forall a :: 0 <= a < |conf| && conf[a] != 0 ==> r[a] == 0.0
    ensures forall a :: 0 <= a < |conf| && conf[a] == 0 ==> r[a] == cl[a].background
  {
    seq(|conf|, a requires 0 <= a < |conf| =>
      CrossEntropy(cl[a], BinaryLabel(conf[a])) * (1.0 - MaskValue(conf[a] != 0)))
  }

  /** `min(num_matched * neg_pre_positive, num_boxes - 1)`: how many anchors a
      sample may select by rank. */
  function NegativeBudget(cfg: Config, numMatched: nat): (k: int)
    ensures k <= numMatched * cfg.negPerPositive && k <= cfg.numBoxes - 1
    ensures k == numMatched * cfg.negPerPositive || k == cfg.numBoxes - 1
    ensures cfg.negPerPositive >= 0 && cfg.numBoxes >= 1 ==> 0 <= k < cfg.numBoxes
  {
    var wanted := numMatched * cfg.negPerPositive;
    if wanted <= cfg.numBoxes - 1 then wanted else cfg.numBoxes - 1
  }

  /** `minimum(mask_pos + (rank < k), 1)`: a 0/1 mask selecting every
      non-background anchor and every anchor ranked below `k`. */
  function Selection(conf: seq<int>, rank: seq<int>, k: int): (sel: seq<real>)
    requires |rank| == |conf|
    ensures |sel| == |conf|
    ensures forall a :: 0 <= a < |conf| ==> sel[a] == 0.0 || sel[a] == 1.0
    ensures forall a :: 0 <= a < |conf| ==> (sel[a] == 1.0 <==> conf[a] != 0 || rank[a] < k)
  {
    seq(|conf|, a requires 0 <= a < |conf| =>
      var v := MaskValue(conf[a] != 0) + MaskValue(rank[a] < k);
      if v <= 1.0 then v else 1.0)
  }

  /** The two `TopK` results of every sample: `order` sorts the mining
      scores descending, `second` sorts `order` (read as numbers) descending. */
  predicate ValidSorts(cfg: Config, batch: Batch, order: seq<seq<int>>, second: seq<seq<int>>)
    requires WellShaped(cfg, batch)
  {
    && |order| == |second| == |batch.conf|
    && forall s :: 0 <= s < |batch.conf| ==>
         && SortsDescending(MiningScores(batch.conf[s], batch.classLoss[s]), order[s])
         && SortsDescending(AsReals(order[s]), second[s])
  }

  /** The selection mask of sample `s`. */
  function SampleSelection(cfg: Config, batch: Batch, second: seq<seq<int>>, s: nat): (sel: seq<real>)
    requires WellShaped(cfg, batch) && s < |batch.conf|
    requires |second| == |batch.conf| && |second[s]| == cfg.numBoxes
    ensures |sel| == cfg.numBoxes
  {
    var conf := batch.conf[s];
    var k := NegativeBudget(cfg, Count(PositiveMask(conf)));
    Selection(conf, Reverse(second[s]), k)
  }

  /** Cross-entropy against the binary label, masked by the selection, per
      anchor of sample `s`. */
  function ConfTerms(cfg: Config, batch: Batch, second: seq<seq<int>>, s: nat): (r: seq<real>)
    requires WellShaped(cfg, batch) && s < |batch.conf|
    requires |second| == |batch.conf| && |second[s]| == cfg.numBoxes
    ensures |r| == cfg.numBoxes && forall a :: 0 <= a < |r| ==> r[a] >= 0.0
  {
    var conf := batch.conf[s];
    var sel := SampleSelection(cfg, batch, second, s);
    seq(cfg.numBoxes, a requires 0 <= a < cfg.numBoxes =>
      CrossEntropy(batch.classLoss[s][a], BinaryLabel(conf[a])) * sel[a])
  }

  /** The selected cross-entropy of sample `s`. */
  function SampleConfSum(cfg: Config, batch: Batch, second: seq<seq<int>>, s: nat): (r: real)
    requires WellShaped(cfg, batch) && s < |batch.conf|
    requires |second| == |batch.conf| && |second[s]| == cfg.numBoxes
    ensures r >= 0.0
  {
    SumNonNegative(ConfTerms(cfg, batch, second, s));
    Sum(ConfTerms(cfg, batch, second, s))
  }

  function ConfSums(cfg: Config, batch: Batch, second: seq<seq<int>>): (r: seq<real>)
    requires WellShaped(cfg, batch)
    requires |second| == |batch.conf| && forall s :: 0 <= s < |second| ==> |second[s]| == cfg.numBoxes
    ensures |r| == |batch.conf| && forall s :: 0 <= s < |r| ==> r[s] >= 0.0
  {
    seq(|batch.conf|, s requires 0 <= s < |batch.conf| => SampleConfSum(cfg, batch, second, s))
  }

  /** Selected cross-entropy over the batch, divided by the same floored
      non-background count as the localisation loss. */
  function ConfLoss(cfg: Config, batch: Batch, second: seq<seq<int>>): real
    requires WellShaped(cfg, batch)
    requires |second| == |batch.conf| && forall s :: 0 <= s < |second| ==> |second[s]| == cfg.numBoxes
  {
    Sum(ConfSums(cfg, batch, second)) / Normaliser(BatchCount(PositiveMasks(batch.conf)))
  }

  /** The whole construct: returns (loc, conf, landm), each non-negative. */
  function MultiBoxLoss(cfg: Config, batch: Batch, order: seq<seq<int>>, second: seq<seq<int>>): (r: Losses)
    requires WellShaped(cfg, batch) && ValidSorts(cfg, batch, order, second)
    ensures r.loc >= 0.0 && r.conf >= 0.0 && r.landm >= 0.0
  {
    LossesNonNegative(cfg, batch, second);
    Losses(LocLoss(cfg, batch), ConfLoss(cfg, batch, second), LandmLoss(cfg, batch))
  }

  // ---------------------------------------------------------------------------
  // Properties
  // ---------------------------------------------------------------------------

  lemma {:induction false} BatchMaskedSumNonNegative(masks: seq<seq<bool>>, vals: seq<seq<real>>)
    requires |masks| == |vals| && forall s :: 0 <= s < |masks| ==> |masks[s]| == |vals[s]|
    requires forall s, a :: 0 <= s < |vals| && 0 <= a < |vals[s]| ==> vals[s][a] >= 0.0
    ensures BatchMaskedSum(masks, vals) >= 0.0
  {
    if masks != [] {
      MaskedSumNonNegative(masks[0], vals[0]);
      BatchMaskedSumNonNegative(masks[1..], vals[1..]);
    }
  }

  lemma LossesNonNegative(cfg: Config, batch: Batch, second: seq<seq<int>>)
    requires WellShaped(cfg, batch)
    requires |second| == |batch.conf| && forall s :: 0 <= s < |second| ==> |second[s]| == cfg.numBoxes
    ensures LocLoss(cfg, batch) >= 0.0 && LandmLoss(cfg, batch) >= 0.0
    ensures ConfLoss(cfg, batch, second) >= 0.0
  {
    BatchMaskedSumNonNegative(PositiveMasks(batch.conf), LocTerms(cfg, batch));
    BatchMaskedSumNonNegative(LandmarkMasks(batch.conf), LandmTerms(cfg, batch));
    SumNonNegative(ConfSums(cfg, batch, second));
  }

  /** Masked batch sums only read the entries under the mask. */
  lemma {:induction false} BatchMaskedSumIgnoresUnmasked(masks: seq<seq<bool>>, v: seq<seq<real>>, w: seq<seq<real>>)
    requires |masks| == |v| == |w|
    requires forall s :: 0 <= s < |masks| ==> |masks[s]| == |v[s]| == |w[s]|
    requires forall s, a :: 0 <= s < |masks| && 0 <= a < |masks[s]| && masks[s][a] ==> v[s][a] == w[s][a]
    ensures BatchMaskedSum(masks, v) == BatchMaskedSum(masks, w)
  {
    if masks != [] {
      MaskedSumIgnoresUnmasked(masks[0], v[0], w[0]);
      BatchMaskedSumIgnoresUnmasked(masks[1..], v[1..], w[1..]);
    }
  }

  /** The localisation loss does not depend on the box predictions or targets
      of background anchors. */
  lemma LocLossIgnoresBackground(cfg: Config, batch: Batch, other: Batch)
    requires WellShaped(cfg, batch) && WellShaped(cfg, other) && other.conf == batch.conf
    requires forall s, a :: 0 <= s < |batch.conf| && 0 <= a < cfg.numBoxes && batch.conf[s][a] != 0 ==>
      other.locPred[s][a] == batch.locPred[s][a] && other.locTarget[s][a] == batch.locTarget[s][a]
    ensures LocLoss(cfg, other) == LocLoss(cfg, batch)
  {
    BatchMaskedSumIgnoresUnmasked(PositiveMasks(batch.conf), LocTerms(cfg, batch), LocTerms(cfg, other));
  }

  /** The landmark loss does not depend on the landmark predictions or targets
      of background or ignored anchors. */
  lemma LandmLossIgnoresNonFaces(cfg: Config, batch: Batch, other: Batch)
    requires WellShaped(cfg, batch) && WellShaped(cfg, other) && other.conf == batch.conf
    requires forall s, a :: 0 <= s < |batch.conf| && 0 <= a < cfg.numBoxes && batch.conf[s][a] > 0 ==>
      other.landmPred[s][a] == batch.landmPred[s][a] && other.landmTarget[s][a] == batch.landmTarget[s][a]
    ensures LandmLoss(cfg, other) == LandmLoss(cfg, batch)
  {
    BatchMaskedSumIgnoresUnmasked(LandmarkMasks(batch.conf), LandmTerms(cfg, batch), LandmTerms(cfg, other));
  }

  /** A masked batch sum of non-negative terms is zero exactly when every
      masked term is zero. */
  lemma {:induction false} BatchMaskedSumZero(masks: seq<seq<bool>>, vals: seq<seq<real>>)
    requires |masks| == |vals| && forall s :: 0 <= s < |masks| ==> |masks[s]| == |vals[s]|
    requires forall s, a :: 0 <= s < |vals| && 0 <= a < |vals[s]| ==> vals[s][a] >= 0.0
    ensures BatchMaskedSum(masks, vals) == 0.0 <==>
      forall s, a :: 0 <= s < |vals| && 0 <= a < |vals[s]| && masks[s][a] ==> vals[s][a] == 0.0
  {
    if masks != [] {
      MaskedSumZero(masks[0], vals[0]);
      MaskedSumNonNegative(masks[0], vals[0]);
      BatchMaskedSumZero(masks[1..], vals[1..]);
      BatchMaskedSumNonNegative(masks[1..], vals[1..]);
      if BatchMaskedSum(masks, vals) == 0.0 {
        forall s, a | 0 <= s < |vals| && 0 <= a < |vals[s]| && masks[s][a]
          ensures vals[s][a] == 0.0
        {
          if s > 0 {
            assert masks[1..][s - 1] == masks[s] && vals[1..][s - 1] == vals[s];
          }
        }
      }
    }
  }

  /** The localisation loss is zero exactly when every non-background
      anchor's box prediction equals its target. */
  lemma LocLossZero(cfg: Config, batch: Batch)
    requires WellShaped(cfg, batch)
    ensures LocLoss(cfg, batch) == 0.0 <==>
      forall s, a :: 0 <= s < |batch.conf| && 0 <= a < cfg.numBoxes && batch.conf[s][a] != 0 ==>
        batch.locPred[s][a] == batch.locTarget[s][a]
  {
    var masks := PositiveMasks(batch.conf);
    var terms := LocTerms(cfg, batch);
    BatchMaskedSumZero(masks, terms);
    assert forall s, a :: 0 <= s < |batch.conf| && 0 <= a < cfg.numBoxes ==>
      (terms[s][a] == 0.0 <==> batch.locPred[s][a] == batch.locTarget[s][a]);
  }

  /** The landmark loss is zero exactly when every face anchor's landmark
      prediction equals its target. */
  lemma LandmLossZero(cfg: Config, batch: Batch)
    requires WellShaped(cfg, batch)
    ensures LandmLoss(cfg, batch) == 0.0 <==>
      forall s, a :: 0 <= s < |batch.conf| && 0 <= a < cfg.numBoxes && batch.conf[s][a] > 0 ==>
        batch.landmPred[s][a] == batch.landmTarget[s][a]
  {
    var masks := LandmarkMasks(batch.conf);
    var terms := LandmTerms(cfg, batch);
    BatchMaskedSumZero(masks, terms);
    assert forall s, a :: 0 <= s < |batch.conf| && 0 <= a < cfg.numBoxes ==>
      (terms[s][a] == 0.0 <==> batch.landmPred[s][a] == batch.landmTarget[s][a]);
  }

  /** Subset masks have no larger counts. */
  lemma {:induction false} CountMonotone(m: seq<bool>, n: seq<bool>)
    requires |m| == |n| && forall a :: 0 <= a < |m| && m[a] ==> n[a]
    ensures Count(m) <= Count(n)
  {
    if m != [] {
      CountMonotone(m[1..], n[1..]);
    }
  }

  lemma {:induction false} BatchCountMonotone(m: seq<seq<bool>>, n: seq<seq<bool>>)
    requires |m| == |n| && forall s :: 0 <= s < |m| ==> |m[s]| == |n[s]|
    requires forall s, a :: 0 <= s < |m| && 0 <= a < |m[s]| && m[s][a] ==> n[s][a]
    ensures BatchCount(m) <= BatchCount(n)
  {
    if m != [] {
      CountMonotone(m[0], n[0]);
      BatchCountMonotone(m[1..], n[1..]);
    }
  }

  /** Face anchors are a subset of non-background anchors, so the landmark
      normaliser never exceeds the localisation one. */
  lemma LandmarkNormaliserAtMostLoc(conf: seq<seq<int>>)
    ensures Normaliser(BatchCount(LandmarkMasks(conf))) <= Normaliser(BatchCount(PositiveMasks(conf)))
  {
    BatchCountMonotone(LandmarkMasks(conf), PositiveMasks(conf));
  }

  /** Replace every label by its binary class. */
  function Binarized(batch: Batch): (r: Batch)
    ensures |r.conf| == |batch.conf|
    ensures forall s :: 0 <= s < |batch.conf| ==> (|r.conf[s]| == |batch.conf[s]|
      && forall a :: 0 <= a < |batch.conf[s]| ==> r.conf[s][a] == BinaryLabel(batch.conf[s][a]))
    ensures r == batch.(conf := r.conf)
  {
    batch.(conf := seq(|batch.conf|, s requires 0 <= s < |batch.conf| =>
      seq(|batch.conf[s]|, a requires 0 <= a < |batch.conf[s]| => BinaryLabel(batch.conf[s][a]))))
  }

  lemma BinarizedSample(cfg: Config, batch: Batch, second: seq<seq<int>>, s: nat)
    requires WellShaped(cfg, batch) && WellShaped(cfg, Binarized(batch)) && s < |batch.conf|
    requires |second| == |batch.conf| && forall t :: 0 <= t < |second| ==> |second[t]| == cfg.numBoxes
    ensures PositiveMask(Binarized(batch).conf[s]) == PositiveMask(batch.conf[s])
    ensures MiningScores(Binarized(batch).conf[s], batch.classLoss[s]) == MiningScores(batch.conf[s], batch.classLoss[s])
    ensures SampleConfSum(cfg, Binarized(batch), second, s) == SampleConfSum(cfg, batch, second, s)
  {
    var bin := Binarized(batch);
    assert PositiveMask(bin.conf[s]) == PositiveMask(batch.conf[s]);
    assert SampleSelection(cfg, bin, second, s) == SampleSelection(cfg, batch, second, s);
    assert ConfTerms(cfg, bin, second, s) == ConfTerms(cfg, batch, second, s);
  }

  /** Collapsing the labels keeps the shapes and keeps the sorts valid. */
  lemma BinarizedShapes(cfg: Config, batch: Batch, order: seq<seq<int>>, second: seq<seq<int>>)
    requires WellShaped(cfg, batch) && ValidSorts(cfg, batch, order, second)
    ensures WellShaped(cfg, Binarized(batch)) && ValidSorts(cfg, Binarized(batch), order, second)
  {
    var bin := Binarized(batch);
    assert WellShaped(cfg, bin);
    forall s | 0 <= s < |batch.conf|
      ensures MiningScores(bin.conf[s], bin.classLoss[s]) == MiningScores(batch.conf[s], batch.classLoss[s])
    {
      BinarizedSample(cfg, batch, second, s);
    }
  }

  /** Localisation and classification only see whether a label is background:
      collapsing every label to its binary class changes neither loss, and
      the same sorts stay valid. */
  lemma BinarizedLossesUnchanged(cfg: Config, batch: Batch, order: seq<seq<int>>, second: seq<seq<int>>)
    requires WellShaped(cfg, batch) && ValidSorts(cfg, batch, order, second)
    ensures WellShaped(cfg, Binarized(batch)) && ValidSorts(cfg, Binarized(batch), order, second)
    ensures LocLoss(cfg, Binarized(batch)) == LocLoss(cfg, batch)
    ensures ConfLoss(cfg, Binarized(batch), second) == ConfLoss(cfg, batch, second)
  {
    var bin := Binarized(batch);
    BinarizedShapes(cfg, batch, order, second);
    forall s | 0 <= s < |batch.conf|
      ensures PositiveMask(bin.conf[s]) == PositiveMask(batch.conf[s])
      ensures SampleConfSum(cfg, bin, second, s) == SampleConfSum(cfg, batch, second, s)
    {
      BinarizedSample(cfg, batch, second, s);
    }
    assert PositiveMasks(bin.conf) == PositiveMasks(batch.conf);
    assert ConfSums(cfg, bin, second) == ConfSums(cfg, batch, second);
    assert LocTerms(cfg, bin) == LocTerms(cfg, batch);
  }

  /** The hard-negative selection of one sample:
      every non-background anchor is selected; the anchors selected by rank
      are exactly the first `k` of the descending order, `k` of them when the
      budget is non-negative (some may be non-background); and every selected
      background anchor has at least the background cross-entropy of every
      anchor left out. */
  lemma SelectionMeaning(cfg: Config, batch: Batch, order: seq<seq<int>>, second: seq<seq<int>>, s: nat)
    requires WellShaped(cfg, batch) && ValidSorts(cfg, batch, order, second) && s < |batch.conf|
    ensures var conf := batch.conf[s];
      var rank := Reverse(second[s]);
      var k := NegativeBudget(cfg, Count(PositiveMask(conf)));
      var sel := SampleSelection(cfg, batch, second, s);
      && IsPermutation(rank, cfg.numBoxes) && IsInverse(order[s], rank, cfg.numBoxes)
      && (forall a :: 0 <= a < cfg.numBoxes && conf[a] != 0 ==> sel[a] == 1.0)
      && (0 <= k ==> forall a :: 0 <= a < cfg.numBoxes ==> (rank[a] < k <==> a in order[s][..k]))
      && (0 <= k ==> Count(RankMask(rank, k)) == k)
      && (forall a, b :: (0 <= a < cfg.numBoxes && 0 <= b < cfg.numBoxes
            && conf[a] == 0 && sel[a] == 1.0 && sel[b] == 0.0) ==>
            batch.classLoss[s][a].background >= batch.classLoss[s][b].background)
  {
    var conf := batch.conf[s];
    var scores := MiningScores(conf, batch.classLoss[s]);
    var rank := Reverse(second[s]);
    var k := NegativeBudget(cfg, Count(PositiveMask(conf)));
    var sel := SampleSelection(cfg, batch, second, s);
    RankIsInverse(order[s], second[s]);
    if 0 <= k {
      RankBelowIsPrefix(order[s], rank, k);
      RankMaskCount(order[s], rank, k);
    }
    RankedBelowIsHarder(scores, order[s], rank, k);
    forall a, b | 0 <= a < cfg.numBoxes && 0 <= b < cfg.numBoxes
        && conf[a] == 0 && sel[a] == 1.0 && sel[b] == 0.0
      ensures batch.classLoss[s][a].background >= batch.classLoss[s][b].background
    {
      assert rank[a] < k <= rank[b];
      assert scores[a] >= scores[b];
    }
  }

  /** The face cross-entropy of every anchor. */
  function FaceLosses(cl: seq<ClassLoss>): (r: seq<real>)
    ensures |r| == |cl| && forall a :: 0 <= a < |cl| ==> r[a] == cl[a].face
  {
    seq(|cl|, a requires 0 <= a < |cl| => cl[a].face)
  }

  /** The selected cross-entropy of a sample splits into the face
      cross-entropy of its non-background anchors plus the mining scores of
      the anchors ranked below the budget. */
  lemma SampleConfSplit(cfg: Config, batch: Batch, second: seq<seq<int>>, s: nat)
    requires WellShaped(cfg, batch) && s < |batch.conf|
    requires |second| == |batch.conf| && |second[s]| == cfg.numBoxes
    ensures var conf := batch.conf[s];
      var k := NegativeBudget(cfg, Count(PositiveMask(conf)));
      SampleConfSum(cfg, batch, second, s)
        == MaskedSum(PositiveMask(conf), FaceLosses(batch.classLoss[s]))
         + MaskedSum(RankMask(Reverse(second[s]), k), MiningScores(conf, batch.classLoss[s]))
  {
    var conf := batch.conf[s];
    var k := NegativeBudget(cfg, Count(PositiveMask(conf)));
    var rank := Reverse(second[s]);
    SumOfMaskedPair(PositiveMask(conf), FaceLosses(batch.classLoss[s]),
      RankMask(rank, k), MiningScores(conf, batch.classLoss[s]), ConfTerms(cfg, batch, second, s));
  }

  /** One sample's selected cross-entropy is the same for any two valid
      pairs of sorts. */
  lemma SampleConfIgnoresTies(cfg: Config, batch: Batch, order1: seq<seq<int>>, second1: seq<seq<int>>,
                              order2: seq<seq<int>>, second2: seq<seq<int>>, s: nat)
    requires WellShaped(cfg, batch) && s < |batch.conf|
    requires ValidSorts(cfg, batch, order1, second1) && ValidSorts(cfg, batch, order2, second2)
    ensures SampleConfSum(cfg, batch, second1, s) == SampleConfSum(cfg, batch, second2, s)
  {
    var conf := batch.conf[s];
    var scores := MiningScores(conf, batch.classLoss[s]);
    var k := NegativeBudget(cfg, Count(PositiveMask(conf)));
    var r1 := Reverse(second1[s]);
    var r2 := Reverse(second2[s]);
    RankIsInverse(order1[s], second1[s]);
    RankIsInverse(order2[s], second2[s]);
    SampleConfSplit(cfg, batch, second1, s);
    SampleConfSplit(cfg, batch, second2, s);
    if k <= 0 {
      assert RankMask(r1, k) == RankMask(r2, k);
    } else {
      TopSum(scores, order1[s], r1, k);
      TopSum(scores, order2[s], r2, k);
      SortedUnique(scores, order1[s], r1, order2[s], r2);
    }
  }

  /** The classification loss does not depend on how either `TopK` call
      breaks ties: any two valid pairs of sorts give the same loss. */
  lemma ConfLossIgnoresTies(cfg: Config, batch: Batch, order1: seq<seq<int>>, second1: seq<seq<int>>,
                            order2: seq<seq<int>>, second2: seq<seq<int>>)
    requires WellShaped(cfg, batch)
    requires ValidSorts(cfg, batch, order1, second1) && ValidSorts(cfg, batch, order2, second2)
    ensures ConfLoss(cfg, batch, second1) == ConfLoss(cfg, batch, second2)
  {
    forall s | 0 <= s < |batch.conf|
      ensures SampleConfSum(cfg, batch, second1, s) == SampleConfSum(cfg, batch, second2, s)
    {
      SampleConfIgnoresTies(cfg, batch, order1, second1, order2, second2, s);
    }
    assert ConfSums(cfg, batch, second1) == ConfSums(cfg, batch, second2);
  }
  // ---------------------------------------------------------------------------
  // The divisors: each loss is a mean over its own anchors
  // ---------------------------------------------------------------------------

  lemma {:induction false} BatchMaskedSumConst(masks: seq<seq<bool>>, vals: seq<seq<real>>, c: real)
    requires |masks| == |vals| && forall s :: 0 <= s < |masks| ==> |masks[s]| == |vals[s]|
    requires forall s, a :: 0 <= s < |vals| && 0 <= a < |vals[s]| && masks[s][a] ==> vals[s][a] == c
    ensures BatchMaskedSum(masks, vals) == Scale(c, BatchCount(masks))
  {
    if masks != [] {
      MaskedSumConst(masks[0], vals[0], c);
      BatchMaskedSumConst(masks[1..], vals[1..], c);
      ScaleAdd(c, Count(masks[0]), BatchCount(masks[1..]));
    }
  }

  lemma {:induction false} BatchCountPositive(masks: seq<seq<bool>>, s: int, a: int)
    requires 0 <= s < |masks| && 0 <= a < |masks[s]| && masks[s][a]
    ensures BatchCount(masks) >= 1
  {
    if s == 0 {
      CountPositive(masks[0], a);
    } else {
      BatchCountPositive(masks[1..], s - 1, a);
    }
  }

  /** Per-sample sums of `c` once per set mask entry add up to `c` once per
      set entry of the whole batch. */
  lemma {:induction false} SumOfScaled(xs: seq<real>, masks: seq<seq<bool>>, c: real)
    requires |xs| == |masks| && forall s :: 0 <= s < |xs| ==> xs[s] == Scale(c, Count(masks[s]))
    ensures Sum(xs) == Scale(c, BatchCount(masks))
  {
    if xs != [] {
      SumOfScaled(xs[1..], masks[1..], c);
      ScaleAdd(c, Count(masks[0]), BatchCount(masks[1..]));
    }
  }

  /** The localisation loss is the mean over the non-background anchors of
      the whole batch: when every such anchor's summed Smooth-L1 is `c`, the
      loss is `c`. */
  lemma LocLossMean(cfg: Config, batch: Batch, c: real)
    requires WellShaped(cfg, batch)
    requires exists s, a :: 0 <= s < |batch.conf| && 0 <= a < cfg.numBoxes && batch.conf[s][a] != 0
    requires forall s, a :: 0 <= s < |batch.conf| && 0 <= a < cfg.numBoxes && batch.conf[s][a] != 0 ==>
      PairLoss(batch.locPred[s][a], batch.locTarget[s][a]) == c
    ensures LocLoss(cfg, batch) == c
  {
    var masks := PositiveMasks(batch.conf);
    var s, a :| 0 <= s < |batch.conf| && 0 <= a < cfg.numBoxes && batch.conf[s][a] != 0;
    BatchCountPositive(masks, s, a);
    BatchMaskedSumConst(masks, LocTerms(cfg, batch), c);
    ScaleMean(c, BatchCount(masks));
  }

  /** The landmark loss is the mean over the face anchors of the whole batch
      (ignored anchors excluded): when every face anchor's summed Smooth-L1
      is `c`, the loss is `c`. */
  lemma LandmLossMean(cfg: Config, batch: Batch, c: real)
    requires WellShaped(cfg, batch)
    requires exists s, a :: 0 <= s < |batch.conf| && 0 <= a < cfg.numBoxes && batch.conf[s][a] > 0
    requires forall s, a :: 0 <= s < |batch.conf| && 0 <= a < cfg.numBoxes && batch.conf[s][a] > 0 ==>
      PairLoss(batch.landmPred[s][a], batch.landmTarget[s][a]) == c
    ensures LandmLoss(cfg, batch) == c
  {
    var masks := LandmarkMasks(batch.conf);
    var s, a :| 0 <= s < |batch.conf| && 0 <= a < cfg.numBoxes && batch.conf[s][a] > 0;
    BatchCountPositive(masks, s, a);
    BatchMaskedSumConst(masks, LandmTerms(cfg, batch), c);
    ScaleMean(c, BatchCount(masks));
  }

  /** Without negative mining (`neg_pre_positive == 0`), a sample's selected
      cross-entropy is the face cross-entropy of its non-background anchors. */
  lemma SampleConfWithoutMining(cfg: Config, batch: Batch, order: seq<seq<int>>, second: seq<seq<int>>,
                                s: nat, c: real)
    requires WellShaped(cfg, batch) && ValidSorts(cfg, batch, order, second) && s < |batch.conf|
    requires cfg.negPerPositive == 0
    requires forall a :: 0 <= a < cfg.numBoxes && batch.conf[s][a] != 0 ==> batch.classLoss[s][a].face == c
    ensures SampleConfSum(cfg, batch, second, s) == Scale(c, Count(PositiveMask(batch.conf[s])))
  {
    var conf := batch.conf[s];
    var k := NegativeBudget(cfg, Count(PositiveMask(conf)));
    var rank := Reverse(second[s]);
    RankIsInverse(order[s], second[s]);
    SampleConfSplit(cfg, batch, second, s);
    MaskedSumNone(RankMask(rank, k), MiningScores(conf, batch.classLoss[s]));
    MaskedSumConst(PositiveMask(conf), FaceLosses(batch.classLoss[s]), c);
  }

  /** The classification loss shares the localisation divisor: without
      negative mining, when every non-background anchor's face cross-entropy
      is `c`, the loss is `c`. */
  lemma ConfLossMean(cfg: Config, batch: Batch, order: seq<seq<int>>, second: seq<seq<int>>, c: real)
    requires WellShaped(cfg, batch) && ValidSorts(cfg, batch, order, second)
    requires cfg.negPerPositive == 0
    requires exists s, a :: 0 <= s < |batch.conf| && 0 <= a < cfg.numBoxes && batch.conf[s][a] != 0
    requires forall s, a :: 0 <= s < |batch.conf| && 0 <= a < cfg.numBoxes && batch.conf[s][a] != 0 ==>
      batch.classLoss[s][a].face == c
    ensures ConfLoss(cfg, batch, second) == c
  {
    var masks := PositiveMasks(batch.conf);
    var sums := ConfSums(cfg, batch, second);
    forall s | 0 <= s < |batch.conf|
      ensures sums[s] == Scale(c, Count(masks[s]))
    {
      SampleConfWithoutMining(cfg, batch, order, second, s, c);
    }
    SumOfScaled(sums, masks, c);
    var s, a :| 0 <= s < |batch.conf| && 0 <= a < cfg.numBoxes && batch.conf[s][a] != 0;
    BatchCountPositive(masks, s, a);
    ScaleMean(c, BatchCount(masks));
  }
}

=== FILE: ranking.dfy ===
/** Descending sorts and the rank trick of the hard-negative mining.

    `TopK(values, n)` with `n` equal to the length returns the indices of
    `values` in descending order; how it breaks ties is not specified, so a
    result is any permutation that orders the values descending. The loss
    sorts the anchors' mining scores (giving `order`), then sorts `order`
    itself read as numbers, and reverses the result. Here that reversed
    second sort is proved to be the inverse of `order`: the rank of every
    anchor. */
module Ranking {
  import opened Seqs

  /** `p` lists each of `0 .. n-1` exactly once. */
  predicate IsPermutation(p: seq<int>, n: nat) {
    && |p| == n
    && (forall i :: 0 <= i < n ==> 0 <= p[i] < n)
    && (forall i, j :: 0 <= i < j < n ==> p[i] != p[j])
  }

  /** What a full-length descending `TopK` returns. */
  predicate SortsDescending(values: seq<real>, order: seq<int>) {
    && IsPermutation(order, |values|)
    && forall i, j :: 0 <= i < j < |order| ==> values[order[i]] >= values[order[j]]
  }

  /** An index vector cast to floating point, as the second sort reads it. */
  function AsReals(p: seq<int>): (r: seq<real>)
    ensures |r| == |p| && forall i :: 0 <= i < |p| ==> r[i] == p[i] as real
  {
    seq(|p|, i requires 0 <= i < |p| => p[i] as real)
  }

  /** `s[::-1]`. */
  function Reverse(s: seq<int>): (r: seq<int>)
    ensures |r| == |s| && forall i :: 0 <= i < |s| ==> r[i] == s[|s| - 1 - i]
  {
    seq(|s|, i requires 0 <= i < |s| => s[|s| - 1 - i])
  }

  /** `rank` is the inverse of `order`: anchor `a` sits at position `rank[a]`. */
  predicate IsInverse(order: seq<int>, rank: seq<int>, n: nat)
    requires IsPermutation(order, n) && IsPermutation(rank, n)
  {
    && (forall a :: 0 <= a < n ==> order[rank[a]] == a)
    && (forall i :: 0 <= i < n ==> rank[order[i]] == i)
  }

  predicate StrictlyDecreasing(v: seq<int>) {
    forall i, j :: 0 <= i < j < |v| ==> v[i] > v[j]
  }

  lemma {:induction false} CountdownUpper(v: seq<int>, j: nat)
    requires StrictlyDecreasing(v) && forall i :: 0 <= i < |v| ==> v[i] < |v|
    requires j < |v|
    ensures v[j] <= |v| - 1 - j
  {
    if j > 0 {
      CountdownUpper(v, j - 1);
    }
  }

  lemma {:induction false} CountdownLower(v: seq<int>, j: nat)
    requires StrictlyDecreasing(v) && forall i :: 0 <= i < |v| ==> v[i] >= 0
    requires j < |v|
    ensures v[j] >= |v| - 1 - j
    decreases |v| - j
  {
    if j < |v| - 1 {
      CountdownLower(v, j + 1);
    }
  }

  /** A strictly decreasing sequence of `n` values in `0 .. n-1` is
      `n-1, n-2, ..., 0`. */
  lemma Countdown(v: seq<int>)
    requires StrictlyDecreasing(v) && forall i :: 0 <= i < |v| ==> 0 <= v[i] < |v|
    ensures forall j :: 0 <= j < |v| ==> v[j] == |v| - 1 - j
  {
    forall j | 0 <= j < |v|
      ensures v[j] == |v| - 1 - j
    {
      CountdownUpper(v, j);
      CountdownLower(v, j);
    }
  }

  /** The rank trick: sorting the permutation `order` descending and
      reversing the result yields a permutation that is the inverse of
      `order`, whatever tie-breaking either sort used. */
  lemma RankIsInverse(order: seq<int>, second: seq<int>)
    requires IsPermutation(order, |order|)
    requires SortsDescending(AsReals(order), second)
    ensures IsPermutation(Reverse(second), |order|)
    ensures IsInverse(order, Reverse(second), |order|)
  {
    var n := |order|;
    var v := seq(n, j requires 0 <= j < n => order[second[j]]);
    assert StrictlyDecreasing(v) by {
      forall i, j | 0 <= i < j < n
        ensures v[i] > v[j]
      {
        assert AsReals(order)[second[i]] >= AsReals(order)[second[j]];
        assert second[i] != second[j];
      }
    }
    Countdown(v);
    var rel := Reverse(second);
    forall a | 0 <= a < n
      ensures order[rel[a]] == a
    {
      assert v[n - 1 - a] == a;
    }
    forall i | 0 <= i < n
      ensures rel[order[i]] == i
    {
      var a := order[i];
      assert order[rel[a]] == a;
    }
  }

  /** Ranks below `k` are exactly the first `k` entries of the descending order. */
  lemma RankBelowIsPrefix(order: seq<int>, rank: seq<int>, k: int)
    requires IsPermutation(order, |order|) && IsPermutation(rank, |order|)
    requires IsInverse(order, rank, |order|)
    requires 0 <= k <= |order|
    ensures forall a :: 0 <= a < |order| ==> (rank[a] < k <==> a in order[..k])
  {
    forall a | 0 <= a < |order| && a in order[..k]
      ensures rank[a] < k
    {
      var p :| 0 <= p < k && order[..k][p] == a;
      assert rank[order[p]] == p;
    }
  }

  /** An anchor ranked below `k` scores at least as high as any anchor
      ranked `k` or later. */
  lemma RankedBelowIsHarder(values: seq<real>, order: seq<int>, rank: seq<int>, k: int)
    requires SortsDescending(values, order) && IsPermutation(rank, |values|)
    requires IsInverse(order, rank, |values|)
    ensures forall a, b :: 0 <= a < |values| && 0 <= b < |values| && rank[a] < k <= rank[b] ==>
      values[a] >= values[b]
  {
    forall a, b | 0 <= a < |values| && 0 <= b < |values| && rank[a] < k <= rank[b]
      ensures values[a] >= values[b]
    {
      assert values[order[rank[a]]] >= values[order[rank[b]]];
    }
  }

  /** Which anchors are ranked below `k`: `relative_position < k` in
      `MultiBoxLoss.construct`. */
  function RankMask(rank: seq<int>, k: int): (m: seq<bool>)
    ensures |m| == |rank| && forall a :: 0 <= a < |rank| ==> (m[a] <==> rank[a] < k)
  {
    seq(|rank|, a requires 0 <= a < |rank| => rank[a] < k)
  }

  /** Going from `k - 1` to `k` adds exactly the anchor at position `k - 1`. */
  lemma RankMaskStep(order: seq<int>, rank: seq<int>, k: nat)
    requires IsPermutation(order, |order|) && IsPermutation(rank, |order|)
    requires IsInverse(order, rank, |order|)
    requires 0 < k <= |order|
    ensures !RankMask(rank, k - 1)[order[k - 1]] && RankMask(rank, k)[order[k - 1]]
    ensures forall a :: 0 <= a < |order| && a != order[k - 1] ==> RankMask(rank, k - 1)[a] == RankMask(rank, k)[a]
  {
    forall a | 0 <= a < |order| && a != order[k - 1]
      ensures RankMask(rank, k - 1)[a] == RankMask(rank, k)[a]
    {
      assert order[rank[a]] == a;
    }
  }

  /** Exactly `k` anchors have a rank below `k`, for `0 <= k <= n`. */
  lemma {:induction false} RankMaskCount(order: seq<int>, rank: seq<int>, k: nat)
    requires IsPermutation(order, |order|) && IsPermutation(rank, |order|)
    requires IsInverse(order, rank, |order|)
    requires k <= |order|
    ensures Count(RankMask(rank, k)) == k
  {
    if k == 0 {
      CountNone(RankMask(rank, 0));
    } else {
      RankMaskCount(order, rank, k - 1);
      RankMaskStep(order, rank, k);
      CountAddOne(RankMask(rank, k - 1), RankMask(rank, k), order[k - 1]);
    }
  }

  /** The values read in the order `order`. */
  function Sorted(values: seq<real>, order: seq<int>): (r: seq<real>)
    requires IsPermutation(order, |values|)
    ensures |r| == |values| && forall i :: 0 <= i < |values| ==> r[i] == values[order[i]]
  {
    seq(|values|, i requires 0 <= i < |values| => values[order[i]])
  }

  /** Summing the values of the anchors ranked below `k` is summing the
      first `k` values in the order. */
  lemma {:induction false} TopSum(values: seq<real>, order: seq<int>, rank: seq<int>, k: nat)
    requires IsPermutation(order, |values|) && IsPermutation(rank, |values|)
    requires IsInverse(order, rank, |values|)
    requires k <= |values|
    ensures MaskedSum(RankMask(rank, k), values) == PrefixSum(Sorted(values, order), k)
  {
    if k == 0 {
      MaskedSumNone(RankMask(rank, 0), values);
    } else {
      TopSum(values, order, rank, k - 1);
      RankMaskStep(order, rank, k);
      MaskedSumAddOne(RankMask(rank, k - 1), RankMask(rank, k), values, order[k - 1]);
    }
  }

  /** Two descending orders of the same values agree on the value at every
      position: here, the value at position `i` of `o2` is at most that of `o1`. */
  lemma SortedAtMost(values: seq<real>, o1: seq<int>, r1: seq<int>, o2: seq<int>, r2: seq<int>, i: nat)
    requires SortsDescending(values, o1) && IsPermutation(r1, |values|) && IsInverse(o1, r1, |values|)
    requires SortsDescending(values, o2) && IsPermutation(r2, |values|) && IsInverse(o2, r2, |values|)
    requires i < |values|
    ensures values[o2[i]] <= values[o1[i]]
  {
    RankMaskCount(o2, r2, i + 1);
    RankMaskCount(o1, r1, i);
    var a := CountWitness(RankMask(r2, i + 1), RankMask(r1, i));
    assert o2[r2[a]] == a && o1[r1[a]] == a;
    assert values[o2[i]] <= values[a] by {
      if r2[a] < i {
        assert values[o2[r2[a]]] >= values[o2[i]];
      }
    }
    assert values[a] <= values[o1[i]] by {
      if r1[a] > i {
        assert values[o1[i]] >= values[o1[r1[a]]];
      }
    }
  }

  /** A descending sort of given values is unique up to the order of ties:
      the sorted values themselves are the same. */
  lemma SortedUnique(values: seq<real>, o1: seq<int>, r1: seq<int>, o2: seq<int>, r2: seq<int>)
    requires SortsDescending(values, o1) && IsPermutation(r1, |values|) && IsInverse(o1, r1, |values|)
    requires SortsDescending(values, o2) && IsPermutation(r2, |values|) && IsInverse(o2, r2, |values|)
    ensures Sorted(values, o1) == Sorted(values, o2)
  {
    forall i | 0 <= i < |values|
      ensures values[o1[i]] == values[o2[i]]
    {
      SortedAtMost(values, o1, r1, o2, r2, i);
      SortedAtMost(values, o2, r2, o1, r1, i);
    }
  }
}

=== FILE: seqs.dfy ===
/** Sequence helpers shared by the label parser and the loss model. */
module Seqs {

  /** The elements of `s` satisfying `keep`, in their original order. The
      definition itself is the order-keeping reference; the contract records
      only that every kept element satisfies `keep` and none is lost. */
  function Filter<T>(s: seq<T>, keep: T -> bool): (r: seq<T>)
    ensures |r| <= |s|
    ensures forall i :: 0 <= i < |r| ==> r[i] in s && keep(r[i])
    ensures forall i :: 0 <= i < |s| && keep(s[i]) ==> s[i] in r
  {
    if s == [] then [] else (if keep(s[0]) then [s[0]] else []) + Filter(s[1..], keep)
  }

  /** Filtering distributes over appending one element at the back. */
  lemma {:induction false} FilterSnoc<T>(s: seq<T>, x: T, keep: T -> bool)
    ensures Filter(s + [x], keep) == Filter(s, keep) + (if keep(x) then [x] else [])
  {
    if s != [] {
      assert (s + [x])[0] == s[0];
      assert (s + [x])[1..] == s[1..] + [x];
      FilterSnoc(s[1..], x, keep);
    }
  }

  function Sum(s: seq<real>): real {
    if s == [] then 0.0 else s[0] + Sum(s[1..])
  }

  /** Number of `true` entries of a 0/1 mask. */
  function Count(s: seq<bool>): nat {
    if s == [] then 0 else (if s[0] then 1 else 0) + Count(s[1..])
  }

  /** A sum of non-negative terms is non-negative. */
  lemma {:induction false} SumNonNegative(s: seq<real>)
    requires forall i :: 0 <= i < |s| ==> s[i] >= 0.0
    ensures Sum(s) >= 0.0
  {
    if s != [] {
      SumNonNegative(s[1..]);
    }
  }

  /** Sum of the entries of `v` whose mask entry is set (`reduce_sum(v * mask)`
      in `MultiBoxLoss.construct`, with a 0/1 mask). */
  function MaskedSum(mask: seq<bool>, v: seq<real>): real
    requires |mask| == |v|
  {
    if v == [] then 0.0 else (if mask[0] then v[0] else 0.0) + MaskedSum(mask[1..], v[1..])
  }

  /** Two sequences that agree wherever `mask` is set have equal masked sums. */
  lemma {:induction false} MaskedSumIgnoresUnmasked(mask: seq<bool>, v: seq<real>, w: seq<real>)
    requires |mask| == |v| == |w|
    requires forall i :: 0 <= i < |mask| && mask[i] ==> v[i] == w[i]
    ensures MaskedSum(mask, v) == MaskedSum(mask, w)
  {
    if v != [] {
      MaskedSumIgnoresUnmasked(mask[1..], v[1..], w[1..]);
    }
  }

  lemma {:induction false} MaskedSumNonNegative(mask: seq<bool>, v: seq<real>)
    requires |mask| == |v|
    requires forall i :: 0 <= i < |v| ==> v[i] >= 0.0
    ensures MaskedSum(mask, v) >= 0.0
  {
    if v != [] {
      MaskedSumNonNegative(mask[1..], v[1..]);
    }
  }

  /** A masked sum of non-negative terms is zero exactly when every masked
      term is zero. */
  lemma {:induction false} MaskedSumZero(mask: seq<bool>, v: seq<real>)
    requires |mask| == |v|
    requires forall i :: 0 <= i < |v| ==> v[i] >= 0.0
    ensures MaskedSum(mask, v) == 0.0 <==> forall i :: 0 <= i < |v| && mask[i] ==> v[i] == 0.0
  {
    if v != [] {
      MaskedSumZero(mask[1..], v[1..]);
      MaskedSumNonNegative(mask[1..], v[1..]);
      if MaskedSum(mask, v) == 0.0 {
        forall i | 0 <= i < |v| && mask[i]
          ensures v[i] == 0.0
        {
          if i > 0 {
            assert mask[1..][i - 1] && v[1..][i - 1] == v[i];
          }
        }
      }
    }
  }

  /** Setting one more mask entry adds exactly that entry's value. */
  lemma {:induction false} MaskedSumAddOne(m1: seq<bool>, m2: seq<bool>, v: seq<real>, x: int)
    requires |m1| == |m2| == |v| && 0 <= x < |v|
    requires !m1[x] && m2[x]
    requires forall i :: 0 <= i < |v| && i != x ==> m1[i] == m2[i]
    ensures MaskedSum(m2, v) == MaskedSum(m1, v) + v[x]
  {
    if x == 0 {
      assert m1[1..] == m2[1..];
    } else {
      MaskedSumAddOne(m1[1..], m2[1..], v[1..], x - 1);
    }
  }

  /** An all-clear mask sums to zero. */
  lemma {:induction false} MaskedSumNone(mask: seq<bool>, v: seq<real>)
    requires |mask| == |v| && forall i :: 0 <= i < |mask| ==> !mask[i]
    ensures MaskedSum(mask, v) == 0.0
  {
    if v != [] {
      MaskedSumNone(mask[1..], v[1..]);
    }
  }

  /** Sum of the first `k` entries. */
  function PrefixSum(v: seq<real>, k: nat): real
    requires k <= |v|
  {
    if k == 0 then 0.0 else PrefixSum(v, k - 1) + v[k - 1]
  }

  /** Summing two masked selections term by term is adding their masked sums. */
  lemma {:induction false} SumOfMaskedPair(m1: seq<bool>, v1: seq<real>, m2: seq<bool>, v2: seq<real>, t: seq<real>)
    requires |m1| == |v1| == |m2| == |v2| == |t|
    requires forall i :: 0 <= i < |t| ==> t[i] == (if m1[i] then v1[i] else 0.0) + (if m2[i] then v2[i] else 0.0)
    ensures Sum(t) == MaskedSum(m1, v1) + MaskedSum(m2, v2)
  {
    if t != [] {
      SumOfMaskedPair(m1[1..], v1[1..], m2[1..], v2[1..], t[1..]);
    }
  }

  /** Setting one more mask entry raises the count by one. */
  lemma {:induction false} CountAddOne(m1: seq<bool>, m2: seq<bool>, x: int)
    requires |m1| == |m2| && 0 <= x < |m1|
    requires !m1[x] && m2[x]
    requires forall i :: 0 <= i < |m1| && i != x ==> m1[i] == m2[i]
    ensures Count(m2) == Count(m1) + 1
  {
    if x == 0 {
      assert m1[1..] == m2[1..];
    } else {
      CountAddOne(m1[1..], m2[1..], x - 1);
    }
  }

  /** An all-clear mask counts zero. */
  lemma {:induction false} CountNone(m: seq<bool>)
    requires forall i :: 0 <= i < |m| ==> !m[i]
    ensures Count(m) == 0
  {
    if m != [] {
      CountNone(m[1..]);
    }
  }

  /** If `m` has more set entries than `n`, some entry is set in `m` only. */
  lemma {:induction false} CountWitness(m: seq<bool>, n: seq<bool>) returns (a: int)
    requires |m| == |n| && Count(m) > Count(n)
    ensures 0 <= a < |m| && m[a] && !n[a]
  {
    if m[0] && !n[0] {
      a := 0;
    } else {
      var b := CountWitness(m[1..], n[1..]);
      a := b + 1;
    }
  }
  /** `c` added up `n` times, the sum of `n` equal terms. */
  function Scale(c: real, n: nat): real {
    if n == 0 then 0.0 else Scale(c, n - 1) + c
  }

  lemma {:induction false} ScaleAdd(c: real, m: nat, n: nat)
    ensures Scale(c, m + n) == Scale(c, m) + Scale(c, n)
  {
    if n > 0 {
      ScaleAdd(c, m, n - 1);
    }
  }

  lemma {:induction false} ScaleIsProduct(c: real, n: nat)
    ensures Scale(c, n) == c * (n as real)
  {
    if n > 0 {
      ScaleIsProduct(c, n - 1);
      assert c * (n as real) == c * ((n - 1) as real) + c;
    }
  }

  /** The mean of `n >= 1` equal terms `c` is `c`. */
  lemma ScaleMean(c: real, n: nat)
    requires n >= 1
    ensures Scale(c, n) / (n as real) == c
  {
    ScaleIsProduct(c, n);
  }

  /** When every masked entry is `c`, the masked sum is `c` once per set
      mask entry. */
  lemma {:induction false} MaskedSumConst(mask: seq<bool>, v: seq<real>, c: real)
    requires |mask| == |v|
    requires forall i :: 0 <= i < |v| && mask[i] ==> v[i] == c
    ensures MaskedSum(mask, v) == Scale(c, Count(mask))
  {
    if v != [] {
      MaskedSumConst(mask[1..], v[1..], c);
    }
  }

  /** A mask with a set entry counts at least one. */
  lemma {:induction false} CountPositive(m: seq<bool>, a: int)
    requires 0 <= a < |m| && m[a]
    ensures Count(m) >= 1
  {
    if a > 0 {
      CountPositive(m[1..], a - 1);
    }
  }
}

=== FILE: targets.dfy ===
/** `read_dataset`: one WIDER-Face record turned into 15-column training
    target rows `[x1, y1, x2, y2, ten landmark coordinates, presence flag]`.
    The image decode is not modelled; the already decoded image is a
    parameter of any type. */
module ReadDataset {
  import opened Wrappers
  import WiderFace

  type Row = WiderFace.Row

  /** Number of columns of a target row. */
  const TargetWidth: nat := 15

  /** Label columns holding the five landmarks' x and y, in order; each
      landmark's third value (its visibility) is skipped. */
  const LandmarkColumns: seq<nat> := [4, 5, 7, 8, 10, 11, 13, 14, 16, 17]

  /** Indexing column 17 needs 18 columns; fewer raise an error. */
  datatype TargetError = TooFewColumns(columns: nat)

  /** `-1` when the first landmark's x is negative (landmarks absent), else `1`. */
  function PresenceFlag(x: real): (f: real)
    ensures f == -1.0 <==> x < 0.0
    ensures f == 1.0 <==> x >= 0.0
  {
    if x < 0.0 then -1.0 else 1.0
  }

  /** One label row as one target row. */
  function TargetRow(row: Row): (r: Result<Row, TargetError>)
    ensures r.Success? <==> |row| >= 18
    ensures r.Success? ==> |r.value| == TargetWidth
  {
    if |row| < 18 then Failure(TooFewColumns(|row|))
    else
      var corners := [row[0], row[1], row[0] + row[2], row[1] + row[3]];
      var landmarks := seq(10, k requires 0 <= k < 10 => row[LandmarkColumns[k]]);
      Success(corners + landmarks + [PresenceFlag(row[4])])
  }

  /** A face described independently of the column layout of either format. */
  datatype Face = Face(x: real, y: real, w: real, h: real, landmarks: seq<real>, present: bool)

  /** The face a raw label row describes: landmark `j` has its x, y and
      visibility at columns `4 + 3j`, `5 + 3j` and `6 + 3j`. */
  function FaceOfLabel(row: Row): Face
    requires |row| >= 18
  {
    Face(row[0], row[1], row[2], row[3],
         seq(10, k requires 0 <= k < 10 => row[4 + 3 * (k / 2) + k % 2]),
         row[4] >= 0.0)
  }

  /** The face a target row describes: corners back to origin and size. */
  function FaceOfTarget(t: Row): Face
    requires |t| == TargetWidth
  {
    Face(t[0], t[1], t[2] - t[0], t[3] - t[1], t[4..14], t[14] > 0.0)
  }

  /** A target row decodes back to the face its label row describes: box,
      all ten landmark coordinates, and landmark presence. */
  lemma TargetRowRoundTrip(row: Row)
    requires |row| >= 18
    ensures TargetRow(row).Success?
    ensures FaceOfTarget(TargetRow(row).value) == FaceOfLabel(row)
  {
    var t := TargetRow(row).value;
    var lm := seq(10, k requires 0 <= k < 10 => row[4 + 3 * (k / 2) + k % 2]);
    forall k | 0 <= k < 10
      ensures t[4..14][k] == lm[k]
    {
      assert LandmarkColumns[k] == 4 + 3 * (k / 2) + k % 2;
    }
    assert t[4..14] == lm;
  }

  /** The flag column is `-1` exactly when the first landmark x is negative
      and `1` otherwise, including when it is zero. */
  lemma FlagColumn(row: Row)
    requires |row| >= 18
    ensures TargetRow(row).value[14] == -1.0 <==> row[4] < 0.0
    ensures TargetRow(row).value[14] == 1.0 <==> row[4] >= 0.0
  {
  }

  /** All label rows, in order; the first row with too few columns fails. */
  function Targets(labels: seq<Row>): (r: Result<seq<Row>, TargetError>)
    ensures r.Success? <==> forall i :: 0 <= i < |labels| ==> |labels[i]| >= 18
    ensures r.Success? ==> |r.value| == |labels|
    ensures r.Success? ==> forall i :: 0 <= i < |labels| ==> TargetRow(labels[i]) == Success(r.value[i])
  {
    if labels == [] then Success([])
    else
      var t :- TargetRow(labels[0]);
      var rest :- Targets(labels[1..]);
      assert forall i :: 1 <= i < |labels| ==> labels[i] == labels[1..][i - 1];
      Success([t] + rest)
  }

  /** What `read_dataset` returns: for an empty annotation only the empty
      0x15 target array, otherwise the image together with its targets. */
  datatype Sample<Img> = EmptyTargets | Sample(image: Img, target: seq<Row>)

  function Read<Img>(image: Img, labels: seq<Row>): (r: Result<Sample<Img>, TargetError>)
    ensures labels == [] <==> r == Success(EmptyTargets)
    ensures r.Success? && r.value.Sample? ==>
      && r.value.image == image
      && |r.value.target| == |labels|
      && forall i :: 0 <= i < |labels| ==>
           (|labels[i]| >= 18 && |r.value.target[i]| == TargetWidth
            && FaceOfTarget(r.value.target[i]) == FaceOfLabel(labels[i]))
    ensures r.Success? && r.value.Sample? ==> Targets(labels) == Success(r.value.target)
    ensures r.Success? && r.value.Sample? ==> forall i :: 0 <= i < |labels| ==>
      r.value.target[i][14] == (if labels[i][4] < 0.0 then -1.0 else 1.0)
    ensures r.Failure? <==> exists i :: 0 <= i < |labels| && |labels[i]| < 18
  {
    if |labels| == 0 then Success(EmptyTargets)
    else
      var t :- Targets(labels);
      assert forall i :: 0 <= i < |labels| ==> FaceOfTarget(t[i]) == FaceOfLabel(labels[i]) by {
        forall i | 0 <= i < |labels|
          ensures FaceOfTarget(t[i]) == FaceOfLabel(labels[i])
        {
          TargetRowRoundTrip(labels[i]);
        }
      }
      Success(Sample(image, t))
  }

  /** A box that survived the loader's pruning becomes a target with
      `x2 > x1` and `y2 > y1`. */
  lemma FaceTargetHasArea(row: Row)
    requires WiderFace.IsFace(row) && |row| >= 18
    ensures var t := TargetRow(row).value; t[2] > t[0] && t[3] > t[1]
  {
  }
}

=== FILE: widerface.dfy ===
/** The WIDER-Face label-file reader (`WiderFace.__init__`).

    The label file is a sequence of lines. A line whose right-stripped text
    starts with `#` names an image; every other line is a box row of numbers
    separated by single spaces. Reading happens in three stages, each modelled
    separately:
      1. every line is classified as a header or a box row (`ReadLines`);
      2. a state machine groups box rows into one record per header (`Scan`);
      3. degenerate boxes are dropped, and records left empty are dropped
         together with their image (`Prune`).
    `Load` composes them. The file system is a parameter: `imageExists` stands
    for `os.path.exists`, and `parse` for Python's `float` on a non-empty token. */
module WiderFace {
  import opened Wrappers
  import opened Seqs

  /** One raw label row: `x y w h` followed by optional landmark values. */
  type Row = seq<real>

  datatype ParseError =
    | BadNumber(token: string)    // `float(token)` raised ValueError
    | MissingImage(path: string)  // the existence assertion on an image path failed
    | ShortRow                    // `label[2]` or `label[3]` raised IndexError
    | NoImageForRecord            // `images_list.pop(i)` raised IndexError

  // ---------------------------------------------------------------------------
  // String helpers with Python's semantics
  // ---------------------------------------------------------------------------

  /** The characters Python's `str.isspace` accepts. */
  predicate IsSpace(c: char) {
    || c == ' ' || '\t' <= c <= '\r' || '\U{1c}' <= c <= '\U{1f}'
    || c == '\U{85}' || c == '\U{a0}' || c == '\U{1680}' || '\U{2000}' <= c <= '\U{200a}'
    || c == '\U{2028}' || c == '\U{2029}' || c == '\U{202f}' || c == '\U{205f}' || c == '\U{3000}'
  }

  /** `s.rstrip()`: the longest prefix of `s` that does not end in whitespace,
      such that everything removed is whitespace. */
  function RStrip(s: string): (r: string)
    ensures |r| <= |s| && r == s[..|r|]
    ensures |r| == 0 || !IsSpace(r[|r| - 1])
    ensures forall i :: |r| <= i < |s| ==> IsSpace(s[i])
  {
    if |s| > 0 && IsSpace(s[|s| - 1]) then RStrip(s[..|s| - 1]) else s
  }

  /** Inverse of `Split`: the pieces glued back together with `sep`. */
  function Join(parts: seq<string>, sep: char): string
    requires |parts| >= 1
  {
    if |parts| == 1 then parts[0] else parts[0] + [sep] + Join(parts[1..], sep)
  }

  /** `s.split(sep)` for a one-character separator: never empty, no piece
      contains the separator, and joining the pieces gives back `s`. */
  function Split(s: string, sep: char): (r: seq<string>)
    ensures |r| >= 1
    ensures forall i :: 0 <= i < |r| ==> sep !in r[i]
    ensures Join(r, sep) == s
  {
    if s == [] then [[]]
    else
      var t := Split(s[1..], sep);
      if s[0] == sep then
        assert ([[]] + t)[1..] == t;
        [[]] + t
      else
        var r := [[s[0]] + t[0]] + t[1..];
        assert r[1..] == t[1..];
        assert |t| > 1 ==> Join(t, sep) == t[0] + [sep] + Join(t[1..], sep);
        assert s == [s[0]] + s[1..];
        r
  }

  /** A piece without the separator splits to itself. */
  lemma {:induction false} SplitWord(w: string, sep: char)
    requires sep !in w
    ensures Split(w, sep) == [w]
  {
    if w != [] {
      SplitWord(w[1..], sep);
      assert [w[0]] + w[1..] == w;
    }
  }

  /** Splitting `w + sep + rest` peels off `w` as the first piece. */
  lemma {:induction false} SplitCons(w: string, sep: char, rest: string)
    requires sep !in w
    ensures Split(w + [sep] + rest, sep) == [w] + Split(rest, sep)
  {
    if w == [] {
      assert [] + [sep] + rest == [sep] + rest;
      assert ([sep] + rest)[1..] == rest;
    } else {
      var s := w + [sep] + rest;
      assert s[1..] == w[1..] + [sep] + rest;
      SplitCons(w[1..], sep, rest);
      assert [w[0]] + w[1..] == w;
    }
  }

  /** `Split` undoes `Join` for pieces that do not contain the separator. */
  lemma {:induction false} SplitJoin(parts: seq<string>, sep: char)
    requires |parts| >= 1
    requires forall i :: 0 <= i < |parts| ==> sep !in parts[i]
    ensures Split(Join(parts, sep), sep) == parts
  {
    if |parts| == 1 {
      SplitWord(parts[0], sep);
    } else {
      SplitJoin(parts[1..], sep);
      SplitCons(parts[0], sep, Join(parts[1..], sep));
      assert [parts[0]] + parts[1..] == parts;
    }
  }

  /** Two adjacent separators produce an empty piece that is not the first. */
  lemma {:induction false} SplitDoubledSeparator(s: string, sep: char, i: nat)
    requires i + 1 < |s| && s[i] == sep && s[i + 1] == sep
    ensures exists k :: 1 <= k < |Split(s, sep)| && Split(s, sep)[k] == []
  {
    var t := Split(s[1..], sep);
    if i == 0 {
      assert s[1..][0] == sep;
      assert t == [[]] + Split(s[1..][1..], sep);
      assert Split(s, sep)[1] == t[0];
    } else {
      SplitDoubledSeparator(s[1..], sep, i - 1);
      var k :| 1 <= k < |t| && t[k] == [];
      assert Split(s, sep)[if s[0] == sep then k + 1 else k] == [];
    }
  }

  predicate OccursAt(s: string, pat: string, i: int) {
    0 <= i && i + |pat| <= |s| && s[i..i + |pat|] == pat
  }

  /** `s.replace(pat, rep)`: left-to-right, non-overlapping replacement of
      every occurrence of a non-empty pattern. */
  function ReplaceAll(s: string, pat: string, rep: string): (r: string)
    requires |pat| > 0
    decreases |s|
  {
    if |s| < |pat| then s
    else if s[..|pat|] == pat then rep + ReplaceAll(s[|pat|..], pat, rep)
    else [s[0]] + ReplaceAll(s[1..], pat, rep)
  }

  /** No occurrence among the first `n` positions of `s` means none among
      the first `n - 1` positions of `s[1..]`. */
  lemma NoOccurrenceInTail(s: string, pat: string, n: int)
    requires |s| > 0 && n <= |s|
    requires forall i :: 0 <= i < n ==> !OccursAt(s, pat, i)
    ensures forall i :: 0 <= i < n - 1 ==> !OccursAt(s[1..], pat, i)
  {
    forall i | 0 <= i < n - 1
      ensures !OccursAt(s[1..], pat, i)
    {
      assert !OccursAt(s, pat, i + 1);
      if i + |pat| <= |s[1..]| {
        assert s[1..][i..i + |pat|] == s[i + 1..i + 1 + |pat|];
      }
    }
  }

  /** A string without an occurrence of the pattern is left unchanged. */
  lemma {:induction false} ReplaceWithoutOccurrence(s: string, pat: string, rep: string)
    requires |pat| > 0
    requires forall i :: 0 <= i < |s| ==> !OccursAt(s, pat, i)
    ensures ReplaceAll(s, pat, rep) == s
    decreases |s|
  {
    if |s| >= |pat| {
      assert !OccursAt(s, pat, 0);
      ReplaceSkipsHead(s, pat, rep);
      NoOccurrenceInTail(s, pat, |s|);
      ReplaceWithoutOccurrence(s[1..], pat, rep);
      assert [s[0]] + s[1..] == s;
    }
  }

  /** Without an occurrence at the front, the first character is kept. */
  lemma ReplaceSkipsHead(s: string, pat: string, rep: string)
    requires |pat| > 0 && |s| >= |pat| && !OccursAt(s, pat, 0)
    ensures ReplaceAll(s, pat, rep) == [s[0]] + ReplaceAll(s[1..], pat, rep)
  {
    assert s[..|pat|] != pat;
  }

  /** A path ending in the pattern, with no earlier occurrence of it, has just
      that final occurrence replaced (".../train/label.txt" becomes
      ".../train/images/"). */
  lemma {:induction false} ReplaceAtEnd(d: string, pat: string, rep: string)
    requires |pat| > 0
    requires forall i :: 0 <= i < |d| ==> !OccursAt(d + pat, pat, i)
    ensures ReplaceAll(d + pat, pat, rep) == d + rep
  {
    var s := d + pat;
    if d == [] {
      assert s == pat && s[..|pat|] == pat && s[|pat|..] == [];
    } else {
      assert !OccursAt(s, pat, 0);
      ReplaceSkipsHead(s, pat, rep);
      assert s[1..] == d[1..] + pat;
      NoOccurrenceInTail(s, pat, |d|);
      ReplaceAtEnd(d[1..], pat, rep);
      assert [d[0]] + (d[1..] + rep) == d + rep;
    }
  }

  const LabelFile: string := "label.txt"
  const ImageDir: string := "images/"

  /** The image path of a right-stripped header line: the label path with
      `label.txt` replaced by `images/`, followed by the header minus its
      first two characters (`'# '`). */
  function HeaderPath(labelPath: string, line: string): (r: string)
    ensures |line| >= 2 ==> |r| >= |line| - 2 && r[|r| - (|line| - 2)..] == line[2..]
    ensures |line| < 2 ==> r == ReplaceAll(labelPath, LabelFile, ImageDir)
  {
    ReplaceAll(labelPath, LabelFile, ImageDir) + (if |line| >= 2 then line[2..] else [])
  }

  /** For the usual layout `<dir>/label.txt` and header `# <rel>`, the image
      path is `<dir>/images/<rel>`. */
  lemma HeaderPathUsual(dir: string, rel: string)
    requires forall i :: 0 <= i < |dir| ==> !OccursAt(dir + LabelFile, LabelFile, i)
    ensures HeaderPath(dir + LabelFile, "# " + rel) == dir + ImageDir + rel
  {
    ReplaceAtEnd(dir, LabelFile, ImageDir);
    assert ("# " + rel)[2..] == rel;
  }

  // ---------------------------------------------------------------------------
  // Stage 1: classifying lines
  // ---------------------------------------------------------------------------

  datatype Line = Header(path: string) | Box(row: Row)

  predicate IsHeaderLine(raw: string) {
    var line := RStrip(raw);
    |line| > 0 && line[0] == '#'
  }

  /** `float(tok)`: the empty token is always rejected; any other token is
      left to the number syntax `parse`. */
  function ParseToken(parse: string -> Option<real>, tok: string): Option<real> {
    if tok == [] then None else parse(tok)
  }

  /** `[float(x) for x in tokens]`: all tokens parse, or the first one that
      does not is reported. */
  function ParseRow(parse: string -> Option<real>, tokens: seq<string>): (r: Result<Row, ParseError>)
    ensures r.Success? <==> forall i :: 0 <= i < |tokens| ==> ParseToken(parse, tokens[i]).Some?
    ensures r.Success? ==> |r.value| == |tokens|
    ensures r.Success? ==> forall i :: 0 <= i < |tokens| ==> ParseToken(parse, tokens[i]) == Some(r.value[i])
    ensures r.Failure? ==> exists i :: (0 <= i < |tokens| && ParseToken(parse, tokens[i]).None?
      && r.error == BadNumber(tokens[i]) && forall j :: 0 <= j < i ==> ParseToken(parse, tokens[j]).Some?)
  {
    if tokens == [] then Success([])
    else
      match ParseToken(parse, tokens[0])
      case None => Failure(BadNumber(tokens[0]))
      case Some(x) =>
        var rest :- ParseRow(parse, tokens[1..]);
        var r := [x] + rest;
        assert forall i :: 1 <= i < |tokens| ==> tokens[i] == tokens[1..][i - 1];
        Success(r)
  }

  /** One line of the label file, read as the body of the loop over `lines` in
      `WiderFace.__init__` reads it. */
  function ReadLine(labelPath: string, imageExists: string -> bool, parse: string -> Option<real>,
                    raw: string): (r: Result<Line, ParseError>)
    ensures r.Success? ==> (r.value.Header? <==> IsHeaderLine(raw))
    ensures r.Success? && r.value.Header? ==>
      r.value.path == HeaderPath(labelPath, RStrip(raw)) && imageExists(r.value.path)
    ensures r.Success? && r.value.Box? ==> |r.value.row| == |Split(RStrip(raw), ' ')|
    ensures r.Success? && r.value.Box? ==> forall i :: 0 <= i < |r.value.row| ==>
      ParseToken(parse, Split(RStrip(raw), ' ')[i]) == Some(r.value.row[i])
    ensures r.Failure? && !IsHeaderLine(raw) ==>
      exists i :: 0 <= i < |Split(RStrip(raw), ' ')| && ParseToken(parse, Split(RStrip(raw), ' ')[i]).None?
    ensures !IsHeaderLine(raw) ==> (forall i :: 0 <= i < |Split(RStrip(raw), ' ')| ==>
      ParseToken(parse, Split(RStrip(raw), ' ')[i]).Some?) ==> r.Success?
    ensures IsHeaderLine(raw) ==> (r.Failure? <==> !imageExists(HeaderPath(labelPath, RStrip(raw))))
    ensures r.Failure? ==> if IsHeaderLine(raw) then r.error.MissingImage? else r.error.BadNumber?
  {
    var line := RStrip(raw);
    if |line| > 0 && line[0] == '#' then
      var path := HeaderPath(labelPath, line);
      if imageExists(path) then Success(Header(path)) else Failure(MissingImage(path))
    else
      var tokens := Split(line, ' ');
      match ParseRow(parse, tokens)
      case Failure(e) => Failure(e)
      case Success(row) => Success(Box(row))
  }

  /** A blank (or all-whitespace) line is not skipped: `float('')` fails. */
  lemma BlankLineIsError(labelPath: string, imageExists: string -> bool, parse: string -> Option<real>,
                         raw: string)
    requires RStrip(raw) == []
    ensures ReadLine(labelPath, imageExists, parse, raw) == Failure(BadNumber([]))
  {
    assert Split([], ' ') == [[]];
  }

  /** Two spaces in a row inside a box line produce an empty token, which fails. */
  lemma DoubledSpaceIsError(labelPath: string, imageExists: string -> bool, parse: string -> Option<real>,
                            raw: string, i: nat)
    requires !IsHeaderLine(raw)
    requires i + 1 < |RStrip(raw)| && RStrip(raw)[i] == ' ' && RStrip(raw)[i + 1] == ' '
    ensures ReadLine(labelPath, imageExists, parse, raw).Failure?
  {
    var tokens := Split(RStrip(raw), ' ');
    SplitDoubledSeparator(RStrip(raw), ' ', i);
    var k :| 1 <= k < |tokens| && tokens[k] == [];
    assert ParseToken(parse, tokens[k]).None?;
  }

  /** All lines, in file order; the first line that fails decides the error. */
  function ReadLines(labelPath: string, imageExists: string -> bool, parse: string -> Option<real>,
                     lines: seq<string>): (r: Result<seq<Line>, ParseError>)
    ensures r.Success? ==> |r.value| == |lines|
    ensures r.Success? ==> forall i :: 0 <= i < |lines| ==>
      ReadLine(labelPath, imageExists, parse, lines[i]) == Success(r.value[i])
    ensures r.Failure? ==> exists i :: (0 <= i < |lines|
      && ReadLine(labelPath, imageExists, parse, lines[i]) == Failure(r.error)
      && forall j :: 0 <= j < i ==> ReadLine(labelPath, imageExists, parse, lines[j]).Success?)
  {
    if lines == [] then Success([])
    else
      var l :- ReadLine(labelPath, imageExists, parse, lines[0]);
      var rest :- ReadLines(labelPath, imageExists, parse, lines[1..]);
      assert forall i :: 1 <= i < |lines| ==> lines[i] == lines[1..][i - 1];
      Success([l] + rest)
  }

  // ---------------------------------------------------------------------------
  // Stage 2: the header/box state machine
  // ---------------------------------------------------------------------------

  /** The state of the loop in `WiderFace.__init__`: the `first` flag, the box rows of the
      record in progress, and the images and completed records so far. */
  datatype ScanState = ScanState(first: bool, labels: seq<Row>, images: seq<string>, records: seq<seq<Row>>)

  /** Image paths and their box records before pruning. */
  datatype Raw = Raw(images: seq<string>, records: seq<seq<Row>>)

  const Start: ScanState := ScanState(true, [], [], [])

  /** A header closes the record in progress, except the first header, which
      keeps any box rows seen before it. */
  function Step(st: ScanState, l: Line): ScanState {
    match l
    case Header(p) =>
      if st.first then ScanState(false, st.labels, st.images + [p], st.records)
      else ScanState(false, [], st.images + [p], st.records + [st.labels])
    case Box(row) => st.(labels := st.labels + [row])
  }

  function Run(st: ScanState, ls: seq<Line>): ScanState
    decreases |ls|
  {
    if ls == [] then st else Run(Step(st, ls[0]), ls[1..])
  }

  /** At end of file the record in progress is appended. */
  function Finish(st: ScanState): Raw {
    Raw(st.images, st.records + [st.labels])
  }

  function Scan(ls: seq<Line>): Raw {
    Finish(Run(Start, ls))
  }

  function CountHeaders(ls: seq<Line>): nat {
    if ls == [] then 0 else (if ls[0].Header? then 1 else 0) + CountHeaders(ls[1..])
  }

  /** Reference reading of a line sequence, independent of the state machine:
      the box rows before the first header (`lead`), then every header with
      the box rows that follow it up to the next header. */
  datatype Groups = Groups(lead: seq<Row>, images: seq<string>, bodies: seq<seq<Row>>)

  /** One line in front of an already grouped rest. */
  function GroupCons(l: Line, g: Groups): Groups {
    match l
    case Header(p) => Groups([], [p] + g.images, [g.lead] + g.bodies)
    case Box(row) => g.(lead := [row] + g.lead)
  }

  function Group(ls: seq<Line>): (g: Groups)
    ensures |g.images| == |g.bodies| == CountHeaders(ls)
    ensures forall i :: 0 <= i < |g.images| ==> Header(g.images[i]) in ls
  {
    if ls == [] then Groups([], [], [])
    else
      var g := Group(ls[1..]);
      assert forall l :: l in ls[1..] ==> l in ls;
      GroupCons(ls[0], g)
  }

  /** What reading the rest of the file from state `st` yields, described by
      the reference grouping of the remaining lines. */
  function Resume(st: ScanState, g: Groups): Raw
    requires |g.images| == |g.bodies|
  {
    if g.images == [] then Raw(st.images, st.records + [st.labels + g.lead])
    else if st.first then Raw(st.images + g.images, st.records + [st.labels + g.lead + g.bodies[0]] + g.bodies[1..])
    else Raw(st.images + g.images, st.records + [st.labels + g.lead] + g.bodies)
  }

  lemma ResumeBox(st: ScanState, row: Row, g: Groups)
    requires |g.images| == |g.bodies|
    ensures Resume(Step(st, Box(row)), g) == Resume(st, GroupCons(Box(row), g))
  {
    assert st.labels + [row] + g.lead == st.labels + ([row] + g.lead);
  }

  lemma ResumeFirstHeader(st: ScanState, p: string, g: Groups)
    requires |g.images| == |g.bodies| && st.first
    ensures Resume(Step(st, Header(p)), g) == Resume(st, GroupCons(Header(p), g))
  {
    assert st.labels + [] + g.lead == st.labels + g.lead;
    assert st.images + [p] + g.images == st.images + ([p] + g.images);
  }

  lemma ResumeLaterHeader(st: ScanState, p: string, g: Groups)
    requires |g.images| == |g.bodies| && !st.first
    ensures Resume(Step(st, Header(p)), g) == Resume(st, GroupCons(Header(p), g))
  {
    assert [] + g.lead == g.lead;
    assert st.labels + [] == st.labels;
    assert st.images + [p] + g.images == st.images + ([p] + g.images);
    assert st.records + [st.labels] + [g.lead] + g.bodies
        == st.records + [st.labels] + ([g.lead] + g.bodies);
  }

  lemma {:induction false} RunMatchesGroup(st: ScanState, ls: seq<Line>)
    ensures Finish(Run(st, ls)) == Resume(st, Group(ls))
    decreases |ls|
  {
    if ls == [] {
      assert st.labels + [] == st.labels;
    } else {
      var g' := Group(ls[1..]);
      RunMatchesGroup(Step(st, ls[0]), ls[1..]);
      assert Group(ls) == GroupCons(ls[0], g');
      match ls[0]
      case Header(p) =>
        if st.first { ResumeFirstHeader(st, p, g'); } else { ResumeLaterHeader(st, p, g'); }
      case Box(row) =>
        ResumeBox(st, row, g');
    }
  }

  /** The state machine reads the file as the reference grouping does: one
      record per header in file order, the first record also holding the box
      rows that precede the first header; with no header at all, a single
      record and no image. */
  lemma ScanMatchesGroup(ls: seq<Line>)
    ensures var g := Group(ls);
      Scan(ls) == if g.images == [] then Raw([], [g.lead])
                  else Raw(g.images, [g.lead + g.bodies[0]] + g.bodies[1..])
  {
    RunMatchesGroup(Start, ls);
    assert [] + Group(ls).lead == Group(ls).lead;
  }

  /** With at least one header, images and records are index-aligned, one
      per header; with none, there is one record and no image. */
  lemma ScanShape(ls: seq<Line>)
    ensures CountHeaders(ls) >= 1 ==>
      |Scan(ls).images| == |Scan(ls).records| == CountHeaders(ls)
    ensures CountHeaders(ls) == 0 ==> Scan(ls).images == [] && |Scan(ls).records| == 1
    ensures forall i :: 0 <= i < |Scan(ls).images| ==> Header(Scan(ls).images[i]) in ls
  {
    ScanMatchesGroup(ls);
  }

  function Boxes(rows: seq<Row>): (r: seq<Line>)
    ensures |r| == |rows| && forall i :: 0 <= i < |r| ==> r[i] == Box(rows[i])
  {
    seq(|rows|, i requires 0 <= i < |rows| => Box(rows[i]))
  }

  lemma {:induction false} GroupLeadingBoxes(rows: seq<Row>, rest: seq<Line>)
    ensures Group(Boxes(rows) + rest) == Group(rest).(lead := rows + Group(rest).lead)
  {
    if rows != [] {
      var ls := Boxes(rows) + rest;
      assert ls[0] == Box(rows[0]);
      assert ls[1..] == Boxes(rows[1..]) + rest;
      assert Group(ls) == GroupCons(ls[0], Group(ls[1..]));
      GroupLeadingBoxes(rows[1..], rest);
      assert [rows[0]] + (rows[1..] + Group(rest).lead) == rows + Group(rest).lead;
    } else {
      assert Boxes(rows) + rest == rest;
      assert rows + Group(rest).lead == Group(rest).lead;
    }
  }

  /** Box rows before the first header are not discarded: they open the first
      image's record, ahead of that header's own rows. */
  lemma LeadingBoxesJoinFirstRecord(rows: seq<Row>, p: string, rest: seq<Line>)
    ensures |Scan(Boxes(rows) + [Header(p)] + rest).images| >= 1
    ensures Scan(Boxes(rows) + [Header(p)] + rest).images[0] == p
    ensures Scan(Boxes(rows) + [Header(p)] + rest).records[0] == rows + Group(rest).lead
  {
    var tail := [Header(p)] + rest;
    assert Boxes(rows) + [Header(p)] + rest == Boxes(rows) + tail;
    GroupLeadingBoxes(rows, tail);
    assert tail[1..] == rest;
    assert Group(tail) == GroupCons(Header(p), Group(rest));
    ScanMatchesGroup(Boxes(rows) + tail);
    assert rows + [] == rows;
  }

  // ---------------------------------------------------------------------------
  // Stage 3: dropping degenerate boxes and empty records
  // ---------------------------------------------------------------------------

  /** A row the width/height test can evaluate without an IndexError: four
      values, or three with a non-positive width (the `or` short-circuits). */
  predicate WellFormedRow(row: Row) {
    |row| >= 4 || (|row| == 3 && row[2] <= 0.0)
  }

  /** A box that survives: positive width and positive height. */
  predicate IsFace(row: Row) {
    |row| >= 4 && row[2] > 0.0 && row[3] > 0.0
  }

  predicate RowsWellFormed(rec: seq<Row>) {
    forall j :: 0 <= j < |rec| ==> WellFormedRow(rec[j])
  }

  predicate AllWellFormed(records: seq<seq<Row>>) {
    forall i :: 0 <= i < |records| ==> RowsWellFormed(records[i])
  }

  /** The test `label[2] <= 0 or label[3] <= 0`, negated: keep the row. */
  function KeepRow(row: Row): (r: Result<bool, ParseError>)
    ensures r.Success? <==> WellFormedRow(row)
    ensures r.Success? ==> (r.value <==> IsFace(row))
    ensures r.Failure? ==> r.error == ShortRow
  {
    if |row| < 3 then Failure(ShortRow)
    else if row[2] <= 0.0 then Success(false)
    else if |row| < 4 then Failure(ShortRow)
    else Success(row[3] > 0.0)
  }

  /** The inner loop: walk the record from the back, popping rejected rows.
      It removes exactly the degenerate boxes and keeps the rest in order. */
  function PruneRecord(rec: seq<Row>): (r: Result<seq<Row>, ParseError>)
    ensures r.Success? <==> RowsWellFormed(rec)
    ensures r.Success? ==> r.value == Filter(rec, IsFace)
    ensures r.Failure? ==> r.error == ShortRow
  {
    if rec == [] then Success([])
    else
      var j := |rec| - 1;
      var keep :- KeepRow(rec[j]);
      var front :- PruneRecord(rec[..j]);
      assert rec[..j] + [rec[j]] == rec;
      FilterSnoc(rec[..j], rec[j], IsFace);
      Success(front + (if keep then [rec[j]] else []))
  }

  /** The image paths and box records of the loaded dataset. */
  datatype Dataset = Dataset(images: seq<string>, labels: seq<seq<Row>>)

  /** The outer loop: walk the records from the back; a record left empty is
      popped together with the image at the same index (which fails if the
      image list is too short), any other record is kept. */
  function Prune(images: seq<string>, records: seq<seq<Row>>): (r: Result<Dataset, ParseError>)
    ensures r.Failure? ==> r.error == ShortRow || r.error == NoImageForRecord
    ensures r.Success? ==> forall i :: 0 <= i < |r.value.images| ==> r.value.images[i] in images
    decreases |records|
  {
    if records == [] then Success(Dataset(images, []))
    else
      var i := |records| - 1;
      var kept :- PruneRecord(records[i]);
      if kept == [] then
        if i < |images| then
          assert forall x :: x in images[..i] + images[i + 1..] ==> x in images;
          Prune(images[..i] + images[i + 1..], records[..i])
        else Failure(NoImageForRecord)
      else
        var d :- Prune(images, records[..i]);
        Success(Dataset(d.images, d.labels + [kept]))
  }

  /** Reference for the pruning pass on index-aligned lists, read front to
      back: each record keeps its faces; a record with none left disappears
      with its image. */
  function PruneSpec(images: seq<string>, records: seq<seq<Row>>): (d: Dataset)
    requires |images| == |records|
    ensures |d.images| == |d.labels| <= |records|
    ensures forall i :: 0 <= i < |d.labels| ==> d.labels[i] != []
    ensures forall i, j :: 0 <= i < |d.labels| && 0 <= j < |d.labels[i]| ==> IsFace(d.labels[i][j])
    ensures forall i :: 0 <= i < |d.images| ==> d.images[i] in images
  {
    if records == [] then Dataset([], [])
    else
      var d := PruneSpec(images[1..], records[1..]);
      var k := Filter(records[0], IsFace);
      assert forall x :: x in images[1..] ==> x in images;
      if k == [] then d else Dataset([images[0]] + d.images, [k] + d.labels)
  }

  lemma {:induction false} PruneSpecSnoc(images: seq<string>, records: seq<seq<Row>>, x: string, rec: seq<Row>)
    requires |images| == |records|
    ensures var d := PruneSpec(images, records);
      var k := Filter(rec, IsFace);
      PruneSpec(images + [x], records + [rec])
        == if k == [] then d else Dataset(d.images + [x], d.labels + [k])
  {
    if records == [] {
      assert images == [];
    } else {
      assert (images + [x])[1..] == images[1..] + [x];
      assert (records + [rec])[1..] == records[1..] + [rec];
      PruneSpecSnoc(images[1..], records[1..], x, rec);
    }
  }

  /** The outcome the back-to-front pass is proved to have when there are at
      least as many images as records: it fails only on a row too short for
      the width/height test, and leaves images past the last record alone. */
  function PruneExpected(images: seq<string>, records: seq<seq<Row>>): Result<Dataset, ParseError>
    requires |images| >= |records|
  {
    if AllWellFormed(records) then
      var d := PruneSpec(images[..|records|], records);
      Success(Dataset(d.images + images[|records|..], d.labels))
    else Failure(ShortRow)
  }

  lemma AllWellFormedSnoc(front: seq<seq<Row>>, rec: seq<Row>)
    ensures AllWellFormed(front + [rec]) <==> AllWellFormed(front) && RowsWellFormed(rec)
  {
    assert forall k :: 0 <= k < |front| ==> (front + [rec])[k] == front[k];
    assert (front + [rec])[|front|] == rec;
  }

  lemma ExpectedDrop(images: seq<string>, front: seq<seq<Row>>, rec: seq<Row>)
    requires |images| > |front|
    requires RowsWellFormed(rec) && Filter(rec, IsFace) == []
    ensures var i := |front|;
      PruneExpected(images[..i] + images[i + 1..], front) == PruneExpected(images, front + [rec])
  {
    var i := |front|;
    var images' := images[..i] + images[i + 1..];
    AllWellFormedSnoc(front, rec);
    assert images[..i + 1] == images[..i] + [images[i]];
    PruneSpecSnoc(images[..i], front, images[i], rec);
    assert images'[..i] == images[..i];
    assert images'[i..] == images[i + 1..];
  }

  lemma ExpectedKeep(images: seq<string>, front: seq<seq<Row>>, rec: seq<Row>)
    requires |images| > |front|
    requires RowsWellFormed(rec) && Filter(rec, IsFace) != []
    ensures PruneExpected(images, front + [rec]) ==
      match PruneExpected(images, front)
      case Failure(e) => Failure(e)
      case Success(d) => Success(Dataset(d.images, d.labels + [Filter(rec, IsFace)]))
  {
    var i := |front|;
    AllWellFormedSnoc(front, rec);
    assert images[..i + 1] == images[..i] + [images[i]];
    PruneSpecSnoc(images[..i], front, images[i], rec);
    var d := PruneSpec(images[..i], front);
    assert d.images + [images[i]] + images[i + 1..] == d.images + images[i..];
  }

  /** The back-to-front pass with `pop` computes the front-to-back reference
      whenever there are at least as many images as records. */
  lemma {:induction false} PruneMatchesSpec(images: seq<string>, records: seq<seq<Row>>)
    requires |images| >= |records|
    ensures Prune(images, records) == PruneExpected(images, records)
    decreases |records|
  {
    if records == [] {
      assert images[..0] == [] && images[0..] == images;
      assert PruneSpec(images[..0], records) == Dataset([], []);
      assert [] + images == images;
    } else {
      var i := |records| - 1;
      var front := records[..i];
      var rec := records[i];
      assert records == front + [rec];
      AllWellFormedSnoc(front, rec);
      var pr := PruneRecord(rec);
      if pr.Success? {
        if pr.value == [] {
          PruneMatchesSpec(images[..i] + images[i + 1..], front);
          ExpectedDrop(images, front, rec);
        } else {
          PruneMatchesSpec(images, front);
          ExpectedKeep(images, front, rec);
        }
      }
    }
  }

  /** On index-aligned lists the pass fails exactly when some row is too short
      for the width/height test, and otherwise equals the reference. */
  lemma PruneAligned(images: seq<string>, records: seq<seq<Row>>)
    requires |images| == |records|
    ensures Prune(images, records) ==
      if AllWellFormed(records) then Success(PruneSpec(images, records)) else Failure(ShortRow)
  {
    PruneMatchesSpec(images, records);
    assert images[..|records|] == images && images[|records|..] == [];
    if AllWellFormed(records) {
      var d := PruneSpec(images, records);
      assert d.images + [] == d.images;
    }
  }

  /** A header directly followed by another header (or by end of file)
      yields an empty record, which is dropped with its image. */
  lemma EmptyRecordDropped(x: string, images: seq<string>, records: seq<seq<Row>>)
    requires |images| == |records|
    ensures PruneSpec([x] + images, [[]] + records) == PruneSpec(images, records)
  {
    assert ([x] + images)[1..] == images;
    assert ([[]] + records)[1..] == records;
  }

  // ---------------------------------------------------------------------------
  // The whole constructor
  // ---------------------------------------------------------------------------

  /** Every image the state machine collects is the path of a header line
      that was read, and so exists. */
  lemma ScannedImagesExist(labelPath: string, imageExists: string -> bool, parse: string -> Option<real>,
                           lines: seq<string>, ls: seq<Line>)
    requires ReadLines(labelPath, imageExists, parse, lines) == Success(ls)
    ensures forall i :: 0 <= i < |Scan(ls).images| ==> imageExists(Scan(ls).images[i])
  {
    ScanShape(ls);
    forall i | 0 <= i < |Scan(ls).images|
      ensures imageExists(Scan(ls).images[i])
    {
      var p := Scan(ls).images[i];
      assert Header(p) in ls;
      var k :| 0 <= k < |ls| && ls[k] == Header(p);
      assert ReadLine(labelPath, imageExists, parse, lines[k]) == Success(ls[k]);
    }
  }

  /** The constructor: read every line, group, prune. Every image path of a
      loaded dataset exists, whether or not the file has a header. */
  function Load(labelPath: string, imageExists: string -> bool, parse: string -> Option<real>,
                lines: seq<string>): (r: Result<Dataset, ParseError>)
    ensures r.Success? ==> forall i :: 0 <= i < |r.value.images| ==> imageExists(r.value.images[i])
  {
    var ls :- ReadLines(labelPath, imageExists, parse, lines);
    var raw := Scan(ls);
    ScannedImagesExist(labelPath, imageExists, parse, lines, ls);
    Prune(raw.images, raw.records)
  }

  lemma {:induction false} HeaderLineCounted(ls: seq<Line>, h: nat)
    requires h < |ls| && ls[h].Header?
    ensures CountHeaders(ls) >= 1
  {
    if h > 0 {
      HeaderLineCounted(ls[1..], h - 1);
    }
  }

  /** When the file has a header line, a successful load leaves the image
      and label lists of equal length; every record is non-empty, every box
      has positive width and height, and every image path exists. */
  lemma LoadAligned(labelPath: string, imageExists: string -> bool, parse: string -> Option<real>,
                    lines: seq<string>, h: nat)
    requires h < |lines| && IsHeaderLine(lines[h])
    requires Load(labelPath, imageExists, parse, lines).Success?
    ensures var d := Load(labelPath, imageExists, parse, lines).value;
      && |d.images| == |d.labels|
      && (forall i :: 0 <= i < |d.labels| ==> d.labels[i] != [])
      && (forall i, j :: 0 <= i < |d.labels| && 0 <= j < |d.labels[i]| ==> IsFace(d.labels[i][j]))
      && (forall i :: 0 <= i < |d.images| ==> imageExists(d.images[i]))
  {
    var ls := ReadLines(labelPath, imageExists, parse, lines).value;
    assert ls[h].Header?;
    HeaderLineCounted(ls, h);
    ScanShape(ls);
    var raw := Scan(ls);
    PruneAligned(raw.images, raw.records);
  }

  /** Without any header line, a successful load keeps one record and no
      image, so the two lists are not aligned. */
  lemma LoadWithoutHeader(labelPath: string, imageExists: string -> bool, parse: string -> Option<real>,
                          lines: seq<string>)
    requires forall i :: 0 <= i < |lines| ==> !IsHeaderLine(lines[i])
    requires Load(labelPath, imageExists, parse, lines).Success?
    ensures Load(labelPath, imageExists, parse, lines).value.images == []
    ensures |Load(labelPath, imageExists, parse, lines).value.labels| == 1
  {
    var ls := ReadLines(labelPath, imageExists, parse, lines).value;
    NoHeaderCounted(ls);
    ScanShape(ls);
    var raw := Scan(ls);
    var rec := raw.records[0];
    assert raw.records == [] + [rec];
    PruneMatchesSpecEmptyImages(rec);
  }

  lemma {:induction false} NoHeaderCounted(ls: seq<Line>)
    requires forall i :: 0 <= i < |ls| ==> ls[i].Box?
    ensures CountHeaders(ls) == 0
  {
    if ls != [] {
      NoHeaderCounted(ls[1..]);
    }
  }

  lemma PruneMatchesSpecEmptyImages(rec: seq<Row>)
    ensures PruneRecord(rec).Failure? ==> Prune([], [rec]) == Failure(ShortRow)
    ensures PruneRecord(rec) == Success([]) ==> Prune([], [rec]) == Failure(NoImageForRecord)
    ensures PruneRecord(rec).Success? && PruneRecord(rec).value != [] ==>
      Prune([], [rec]) == Success(Dataset([], [PruneRecord(rec).value]))
  {
    assert [rec][..0] == [];
    assert Prune([], []) == Success(Dataset([], []));
    if PruneRecord(rec).Success? {
      assert [] + [PruneRecord(rec).value] == [PruneRecord(rec).value];
    }
  }

  /** An empty label file fails: its single empty record has no image to pop. */
  lemma EmptyFileFails(labelPath: string, imageExists: string -> bool, parse: string -> Option<real>)
    ensures Load(labelPath, imageExists, parse, []) == Failure(NoImageForRecord)
  {
    assert Scan([]) == Raw([], [[]]);
    PruneMatchesSpecEmptyImages([]);
  }
}

=== FILE: wrappers.dfy ===
/** Failure-compatible Option and Result types used to model the exceptions
    the detection pipeline raises. */
module Wrappers {

  datatype Option<+T> = None | Some(value: T)

  datatype Result<+T, +E> = Success(value: T) | Failure(error: E) {

    predicate IsFailure() {
      Failure?
    }

    function PropagateFailure<U>(): Result<U, E>
      requires Failure?
    {
      Failure(error)
    }

    function Extract(): T
      requires Success?
    {
      value
    }
  }
}
